=== FILE: README.md ===
# NIO reactors and the IPC-mode flag, in Dafny

This project models three parts of the DistributedSystems Halloween
simulation:

- **`NioClient`**: a client reactor. It opens connections and hands out an
  `NioSender` for each one. The sender frames every message with a trailing
  `'|'`. The selector thread completes connections, reads responses into a
  per-connection `RspHandler`, and drains write queues.
- **`NioBroadcastServer`**: a server reactor. It accepts connections and
  hands what it reads to a worker. `send` queues bytes for one channel;
  `broadcast` queues them for every live connection. The sending channel itself is
  included only in the ATOMIC simulation mode.
- **`IPCMode`**: static state with the current IPC mode and a "mode change in
  progress" flag. `takeModeChanging` tests and sets the flag, and `get` blocks
  while it is set (when IPC consensus is required).

The model is functional: each reactor's state is an immutable record and
every handler is a pure function. The OS's choices are inputs:

- whether `finishConnect` succeeds;
- what a `read` meets (an `IOException`, end of stream, or bytes);
- how many bytes each `write` accepts, or whether it throws;
- whether `accept` finds a pending connection;
- the order in which the selector's key set is iterated.

A Java exception becomes a value (`Outcome`, `Handled`, `Served`) carrying the
state as the exception left it.

Files (one module each):

- `common.dfy` (`Common`): bytes, channel identities, selection-key
  operations, the exceptions, `Option` and `Outcome`.
- `write_queue.dfy` (`WriteQueue`): the per-channel queue of `ByteBuffer`s,
  the drain loop both reactors' `write` share (as a recursive function and as
  the original `while` loop), and byte conservation over any interleaving of
  enqueues and drains.
- `reactor.dfy` (`Reactor`): the state both reactors share, plus:
  - the pending-change processing at the top of each run-loop iteration;
  - cancel and close;
  - the `write` handler.
- `client.dfy` (`NioClient`): `connect`, `initiateConnection`,
  `NioSender.broadcast`, `finishConnection`, `read`, `handleResponse`, the
  dispatch, and whole-client traces.
- `server.dfy` (`BroadcastServer`): the selector set-up, `send`,
  `broadcast`, `accept`, `read`, the dispatch and the server's change
  processing.
- `ipc_mode.dfy` (`IpcModes`): the `IPCMode` flag state machine.

The main results:

- For any sequence of client operations, each connection's sent bytes
  followed by its still-queued bytes are exactly the frames broadcast on it,
  in call order. So the wire is always a prefix of the frames.
- A change request that throws leaves the pending-change list uncleared. The
  reactor then fails on the same request at every later iteration, and no
  request queued after it takes effect.
- When change processing succeeds, each key's interest set is the operation
  of the last request for it.
- A server broadcast gives every recipient its own buffer position over the
  same bytes, and touches no other channel. It never includes the listener, and it includes the
  source only in ATOMIC mode.
- Bytes are conserved in the server too: over any sequence of sends,
  broadcasts, change processing and ready keys, each channel's wire followed
  by its queue grows by exactly the data sent or broadcast to it, in call
  order. An
  accepted connection stays a recipient until a read tears it down.
- Writes make progress: while every write accepts at least one byte, as many
  writable events as the queue's backlog empty it, and the key goes back to
  READ only.
- While change processing never throws, every live client channel with
  queued data is interested in WRITE after each change processing. On the
  server this holds after every successful change processing, with no
  assumption about earlier ones. A
  broadcast processed before the connection completes still loses the
  CONNECT interest.
- `takeModeChanging` is granted at most once until `unsetChanging`, and
  `get` returns the mode most recently `set`.

Behaviour of the Java code worth knowing:

- Closing a channel does not remove its entries from `pendingData`,
  `rspHandlers` or the selector's key set. The key is only cancelled.
- End of stream is the read count `-1`. A zero-byte read is handed on like
  any other data.
- Sending on a channel with no write queue is not rejected up front. The
  client appends its `CHANGEOPS` request first and only then throws. The
  server creates the queue.
- An empty client message is silently ignored. Dispatch priority is
  connect > read > write in the client and accept > read > write in the
  server.
- Whether a broadcast reaches its source depends on the global
  `DistroHalloweenSimulation.MODE`.
- A client broadcast that is processed before its connection completes
  replaces the key's CONNECT interest with WRITE. Requests replace interest
  sets instead of adding to them, so `finishConnection` is then never selected
  for that channel (`NioClient.BroadcastBeforeFinishLosesConnect`). Its
  queued frames are then never sent, because Java's `write` on a channel that
  has not finished connecting throws `NotYetConnectedException`. So
  `NioClient.QueuedDataHasWriteInterest` (WRITE interest for every queue)
  does not mean that every queued frame goes out.
- The server's `read` and `write` cast `key.channel()` to `SocketChannel`, and
  its `accept` casts it to `ServerSocketChannel`. A key whose ready set picks
  the handler meant for the other kind of channel therefore throws a
  `ClassCastException`.

## Model

| member | source | states |
|---|---|---|
| WriteQueue.Frame | src/gipc_sims/nio/NioClient.java:353-357 | the framed message is the payload followed by exactly one separator byte `'|'` (code 124) |
| WriteQueue.Enqueue | src/nio_sims/NioBroadcastServer.java:73 | adding a wrapped buffer keeps the earlier buffers, appends one unstarted buffer, and grows the pending bytes by exactly the data |
| WriteQueue.Drain | src/gipc_sims/nio/NioClient.java:249-258 | the bytes written followed by what stays queued are exactly the queue's pending bytes; what stays is a suffix of the queue whose head may have advanced; after a partial write the head still has bytes; a throwing write leaves the queue as it stood, and the drain fails only when some write throws |
| WriteQueue.DrainFirstWrite | src/nio_sims/NioBroadcastServer.java:216-226 | the first OS answer decides the head: a throw leaves the queue untouched; an accepted count short of the head's remainder sends exactly that many bytes and keeps every buffer; a count that covers the head removes at least the head |
| WriteQueue.DrainProgresses | src/nio_sims/NioBroadcastServer.java:216-226 | when the first write accepts at least one byte, a drain of a non-empty queue strictly lowers its backlog (pending bytes plus buffers) |
| WriteQueue.DrainEach | src/nio_sims/NioBroadcastServer.java:216-226 | successive drains, each meeting its own OS answers, keep an empty queue empty, and while every drain's first write accepts a byte each takes at least one unit of backlog off until the queue is empty |
| WriteQueue.DrainEachEmpties | src/nio_sims/NioBroadcastServer.java:216-234 | while every drain's first write accepts a byte, however the OS splits the rest, as many drains as the queue's backlog empty it |
| WriteQueue.DrainQueue | src/nio_sims/NioBroadcastServer.java:216-226 | the server's `while` loop, run step by step, ends in the same queue, bytes written and failure as the recursive drain, and loses no byte |
| WriteQueue.ReplayConservesBytes | src/gipc_sims/nio/NioClient.java:245-265 | over any interleaving of enqueues and write-readiness, the wire followed by the queue equals the old wire, the old queue and everything submitted since, in order |
| WriteQueue.WireIsPrefixOfSubmitted | src/gipc_sims/nio/NioClient.java:249-258 | from an idle connection the bytes handed to the OS are always a prefix of the bytes submitted |
| WriteQueue.ReplayKeepsOnlyHeadStarted | src/gipc_sims/nio/NioClient.java:250-257 | queue-level only: over any sequence of enqueues and drains of one queue, starting with at most the head partly written, only its head buffer is ever partly written |
| Reactor.EnsureQueue | src/gipc_sims/nio/NioClient.java:83-89 | a queue is created only when the channel has none; existing queues are kept |
| Reactor.RequestWrite | src/nio_sims/NioBroadcastServer.java:64 | a `CHANGEOPS(OP_WRITE)` request for the channel is appended and nothing else changes |
| Reactor.AppendBuffer | src/nio_sims/NioBroadcastServer.java:68-73 | the channel's queue gets one more buffer holding exactly the data; other queues are unchanged |
| Reactor.ApplyChange | src/gipc_sims/nio/NioClient.java:134-144 | `CHANGEOPS` throws exactly when the channel has no key or a cancelled key, and otherwise replaces the interest set; `REGISTER` throws exactly for a closed channel or a cancelled key; the server ignores `REGISTER` |
| Reactor.ProcessChanges | src/gipc_sims/nio/NioClient.java:130-147 | the list is cleared only when no request throws; after a throw it stays as it was; only the keys and the list change |
| Reactor.AppliedKeyIsLastRequest | src/gipc_sims/nio/NioClient.java:131-145 | after the requests run without a throw, each channel's key holds exactly the operation of the last honoured request for it, and unnamed channels keep their key or its absence |
| Reactor.ProcessChangesLastWins | src/nio_sims/NioBroadcastServer.java:118-129 | a successful change-processing step clears the list and leaves each key with the operation of its last request (requests replace, they do not merge) |
| Reactor.FailureSplits | src/gipc_sims/nio/NioClient.java:132-145 | a failed run is a successful run of the requests before the failing one, which it leaves in force, followed by the failing one |
| Reactor.ReapplyIsIdempotent | src/gipc_sims/nio/NioClient.java:131-145 | applying a successful batch of requests again, to the keys it produced, succeeds and changes nothing |
| Reactor.FailedChangesRecur | src/gipc_sims/nio/NioClient.java:130-147 | after a request throws, the next iteration throws the same exception again from the same keys, whatever requests were queued behind it |
| Reactor.Cancel | src/gipc_sims/nio/NioClient.java:284 | cancelling invalidates the channel's key and touches nothing else |
| Reactor.Close | src/gipc_sims/nio/NioClient.java:196-197 | closing marks the channel closed and cancels its key; queues, sent bytes and requests are left in place |
| Reactor.Write | src/nio_sims/NioBroadcastServer.java:209-235 | a channel with no queue throws and nothing changes; otherwise the queue left is what the drain loop leaves, no byte is lost between wire and queue, only that channel's queue, wire and key change, an emptied queue sets the interest to READ alone, and a partial write keeps the key; it throws an `IOException` only when some OS answer throws, a throwing first answer leaves queue and wire as they were, and a first write accepting a byte lowers the backlog |
| Reactor.WriteLeavesOtherQueues | src/nio_sims/NioBroadcastServer.java:212-226 | writing one channel leaves every other channel's queue and wire unchanged |
| Reactor.WriteMakesProgress | src/nio_sims/NioBroadcastServer.java:209-234 | a write that accepts at least one byte and throws nothing lowers the backlog of a non-empty queue, keeps an empty one empty, and leaves READ interest when the queue is empty |
| Reactor.WriteEach | src/nio_sims/NioBroadcastServer.java:209-234 | while no write throws, successive writable events, each meeting its own OS answers, leave exactly the queue the same drains leave, and once they have emptied it the key is interested in READ only |
| Reactor.RepeatedWritesEmptyQueue | src/nio_sims/NioBroadcastServer.java:209-234 | while no write throws and every event's first write accepts at least one byte, whatever each event's other answers, as many writable events as the backlog (and at least one) empty the queue and leave the key interested in READ only |
| Reactor.ReadyOps | src/gipc_sims/nio/NioClient.java:163-169 | the selector reports for a key only the ready operations it is interested in, and nothing for a channel with no key |
| Reactor.ServerWriteRequestsOnlyWrite | src/nio_sims/NioBroadcastServer.java:120-127 | when every request asks for WRITE, the server's change processing, even one that throws part-way, leaves each key as it was or interested in WRITE alone |
| Reactor.ServerChangesKeepChannels | src/nio_sims/NioBroadcastServer.java:120-127 | the server's change processing never adds or removes a registered channel |
| Reactor.UnhonouredChangesIgnored | src/nio_sims/NioBroadcastServer.java:120-127 | requests the reactor does not honour change nothing wherever they stand: applying the list is applying its honoured requests alone |
| NioClient.Init | src/gipc_sims/nio/NioClient.java:44-57 | a new client has no keys, no requests, no queues and no handlers |
| NioClient.InitiateConnection | src/gipc_sims/nio/NioClient.java:102-121 | a connection is made exactly when opening succeeds; it queues one `REGISTER(OP_CONNECT)` after the earlier requests and changes nothing else; in a well-formed client the new channel has no key, handler, queue, wire or closed mark yet |
| NioClient.Connect | src/gipc_sims/nio/NioClient.java:75-95 | connecting registers the handler and gives the new channel an empty queue, leaving every other queue as it was |
| NioClient.SenderBroadcast | src/gipc_sims/nio/NioClient.java:345-369 | an empty message does nothing; otherwise a `CHANGEOPS(OP_WRITE)` request is appended first, then a channel with no queue throws (the request stays), and a channel with a queue gets one buffer holding the framed message, its pending bytes growing by exactly that frame |
| NioClient.BroadcastEnqueuesOneFrame | src/gipc_sims/nio/NioClient.java:353-363 | the added buffer is unstarted, one byte longer than the payload, holds the payload, and ends with the separator |
| NioClient.FinishConnection | src/gipc_sims/nio/NioClient.java:273-294 | a failed completion cancels the key; a successful one sets the interest to READ when nothing is queued and to WRITE otherwise |
| NioClient.ReadChunk | src/gipc_sims/nio/NioClient.java:186-191 | a read copies a prefix of the available bytes, as many as fit in the 8192-byte buffer |
| NioClient.HandleResponse | src/gipc_sims/nio/NioClient.java:220-235 | a channel with no handler throws; otherwise the handler gets exactly the bytes read, and the channel is closed exactly when the handler answers true |
| NioClient.Read | src/gipc_sims/nio/NioClient.java:182-211 | an exception or end of stream closes the channel and cancels its key without calling the handler; otherwise the handler gets the bytes read, capped at the buffer size, a missing handler throws, and the channel is closed exactly when the handler answers true for those bytes (else nothing changes) |
| NioClient.Write | src/gipc_sims/nio/NioClient.java:242-267 | the client's write conserves the channel's bytes; a missing queue throws and changes nothing; the queue left is what the drain loop leaves; it throws an `IOException` only when some OS answer throws; a first write accepting a byte lowers the backlog; an emptied queue sets READ interest, and a partial write or a throw keeps the key |
| NioClient.ClientHandler | src/gipc_sims/nio/NioClient.java:163-169 | exactly one handler runs for a ready key, chosen connect before read before write |
| NioClient.Dispatch | src/gipc_sims/nio/NioClient.java:153-170 | an invalid key is skipped; on a valid key the handler chosen by priority is the one that runs: connect completes or cancels the connection, a teardown read closes the channel and cancels its key, a write leaves the queue the drain loop leaves; only the read handler delivers data; only the write handler touches queues or the wire; no handler queues requests |
| NioClient.DispatchConservesBytes | src/gipc_sims/nio/NioClient.java:153-170 | whatever one ready key does, every channel's wire followed by its queue keeps its bytes |
| NioClient.StepConservesBytes | src/gipc_sims/nio/NioClient.java:345-365 | one client operation adds to a channel's wire and queue exactly the frame of a non-empty broadcast on it, and nothing otherwise |
| NioClient.RunConservesBytes | src/gipc_sims/nio/NioClient.java:126-175 | over any sequence of client operations, a channel's wire followed by its queue is what it was followed by the frames of the later broadcasts on it, in call order |
| NioClient.ConnectionWireIsPrefixOfFrames | src/gipc_sims/nio/NioClient.java:75-95 | on a new client's first connection, whatever happens afterwards, the bytes sent are a prefix of the frames broadcast on it |
| NioClient.ProcessChangesKeepsWriteInterest | src/gipc_sims/nio/NioClient.java:130-147 | successful change processing keeps every channel with queued data wanted for writing |
| NioClient.DispatchKeepsWriteInterest | src/gipc_sims/nio/NioClient.java:153-170 | no handler leaves queued data on a channel that is no longer wanted for writing |
| NioClient.RunKeepsWriteInterest | src/gipc_sims/nio/NioClient.java:126-175 | over any run whose change processing never throws, every channel with queued data keeps a pending WRITE request, WRITE interest or a cancelled key |
| NioClient.QueuedDataHasWriteInterest | src/gipc_sims/nio/NioClient.java:130-147 | from a new client, while change processing never throws, each completed change processing leaves every live channel with queued data interested in WRITE |
| NioClient.BroadcastBeforeFinishLosesConnect | src/gipc_sims/nio/NioClient.java:135-141 | connecting, processing, broadcasting before completion and processing again leaves the key interested in WRITE only, so no ready set ever selects `finishConnection` for it |
| BroadcastServer.Init | src/nio_sims/NioBroadcastServer.java:237-255 | a new server's only registered channel is the listener, with interest in ACCEPT, and it has no requests or queues; its channel numbering is well formed |
| BroadcastServer.Send | src/nio_sims/NioBroadcastServer.java:61-79 | `send` appends one `CHANGEOPS(OP_WRITE)` request and appends the raw data, with no separator, to the channel's queue (creating it if needed); other queues are unchanged |
| BroadcastServer.Targets | src/nio_sims/NioBroadcastServer.java:85-90 | the channels written to are exactly the recipients in the snapshot, each once |
| BroadcastServer.SendAllQueues | src/nio_sims/NioBroadcastServer.java:92-105 | sending to distinct targets gives each exactly one new buffer with the data and leaves every other queue unchanged |
| BroadcastServer.SendAll | src/nio_sims/NioBroadcastServer.java:92-105 | sending to each target in turn appends one `CHANGEOPS(OP_WRITE)` per target, in order, after the earlier requests, and changes no key, listener or numbering |
| BroadcastServer.Broadcast | src/nio_sims/NioBroadcastServer.java:81-112 | every recipient's queue gets one buffer with the data and its pending bytes grow by exactly the data; every other queue is unchanged; no key changes |
| BroadcastServer.BroadcastRequestsWriteForRecipients | src/nio_sims/NioBroadcastServer.java:92-96 | the requests a broadcast appends follow the earlier ones, ask for WRITE, and name exactly the recipients, each once |
| BroadcastServer.WriteRequestsNameTargets | src/nio_sims/NioBroadcastServer.java:95 | the requests for distinct targets are `CHANGEOPS(OP_WRITE)` and name each target exactly once |
| BroadcastServer.RecipientsExcludeListenerAndSource | src/nio_sims/NioBroadcastServer.java:88-90 | the listener is never a recipient; the source is one exactly in ATOMIC mode with a valid key; every other channel's membership does not depend on the mode |
| BroadcastServer.BroadcastCopiesAreIndependent | src/nio_sims/NioBroadcastServer.java:104 | each recipient has its own position over the shared bytes, so writing one recipient, even partially, leaves another's queue ending with the whole unstarted broadcast |
| BroadcastServer.Accept | src/nio_sims/NioBroadcastServer.java:159-173 | with no pending connection `accept` returns null and the next dereference throws; otherwise the new channel is registered for READ only and gets no queue |
| BroadcastServer.Read | src/nio_sims/NioBroadcastServer.java:175-207 | data goes to the worker exactly when bytes arrived, leaving the state unchanged; an exception or end of stream closes the channel and cancels its key |
| BroadcastServer.ClosedByReadIsNoRecipient | src/nio_sims/NioBroadcastServer.java:183-203 | right after a read tears a channel down, it is no recipient of the next broadcast |
| BroadcastServer.TornDownIsNoRecipientLater | src/nio_sims/NioBroadcastServer.java:183-203 | in a well-formed server, a channel torn down by a read is no recipient of any broadcast after any later sequence of events |
| BroadcastServer.ServerHandler | src/nio_sims/NioBroadcastServer.java:145-151 | exactly one handler runs for a ready key, chosen accept before read before write |
| BroadcastServer.Dispatch | src/nio_sims/NioBroadcastServer.java:135-152 | an invalid key is skipped; a handler meant for the other kind of channel throws a `ClassCastException`; otherwise the handler chosen by priority is the one that runs: accept on the listener, a read that tears the channel down closes it and cancels its key, a write leaves the state `write` leaves; only the read handler hands data to the worker, never from the listener; only the write handler touches queues; no handler queues requests |
| BroadcastServer.ProcessChanges | src/nio_sims/NioBroadcastServer.java:118-129 | the server's change processing clears the list only when no request throws |
| BroadcastServer.ServerIgnoresRegister | src/nio_sims/NioBroadcastServer.java:122-126 | a list holding only `REGISTER` requests is cleared without changing any key |
| BroadcastServer.RegisterRequestsIgnored | src/nio_sims/NioBroadcastServer.java:120-127 | wherever REGISTER requests stand, change processing ends with the keys and exception of the CHANGEOPS requests alone, in order |
| BroadcastServer.DispatchConservesBytes | src/nio_sims/NioBroadcastServer.java:135-152 | whatever one selected key does, every channel's wire followed by its queue keeps its bytes |
| BroadcastServer.DispatchKeepsValidKeys | src/nio_sims/NioBroadcastServer.java:183-203 | only a read that tears its channel down cancels a valid key |
| BroadcastServer.ServerStepConservesBytes | src/nio_sims/NioBroadcastServer.java:61-112 | one server operation adds to a channel's wire and queue exactly the data of a send to it or of a broadcast it receives, and nothing otherwise |
| BroadcastServer.ServerRunConservesBytes | src/nio_sims/NioBroadcastServer.java:114-157 | over any sequence of server operations, a channel's wire followed by its queue is what it was followed by the data of every later send to it and broadcast it received, in call order |
| BroadcastServer.RecipientUntilClosed | src/nio_sims/NioBroadcastServer.java:85-90 | a recipient of broadcasts stays one through any operations until a read on it meets an exception or end of stream |
| BroadcastServer.ServerStepKeepsWellFormed | src/nio_sims/NioBroadcastServer.java:159-173 | `accept` registers a channel new to the selector and no other event registers one, so every key stays numbered below the next fresh channel |
| BroadcastServer.ServerRunKeepsWellFormed | src/nio_sims/NioBroadcastServer.java:114-157 | the channel numbering stays well formed over any sequence of server operations |
| BroadcastServer.ServerStepKeepsCancelled | src/nio_sims/NioBroadcastServer.java:114-157 | no server operation makes a cancelled key valid again, and `accept` never reuses its channel |
| BroadcastServer.CancelledStaysNoRecipient | src/nio_sims/NioBroadcastServer.java:85-90 | once its key is cancelled, a channel is no recipient of any broadcast after any sequence of server operations |
| BroadcastServer.InitKeepsWriteInterest | src/nio_sims/NioBroadcastServer.java:237-255 | a new server meets the write-interest invariant |
| BroadcastServer.SendKeepsWriteInterest | src/nio_sims/NioBroadcastServer.java:61-79 | `send` keeps the invariant: the channel it queues for has WRITE as its last request |
| BroadcastServer.SendAllKeepsWriteInterest | src/nio_sims/NioBroadcastServer.java:92-105 | so does a broadcast's sending to each recipient |
| BroadcastServer.ProcessChangesKeepsWriteInterest | src/nio_sims/NioBroadcastServer.java:116-127 | change processing keeps the invariant, whether or not a request throws |
| BroadcastServer.DispatchKeepsWriteWanted | src/nio_sims/NioBroadcastServer.java:135-152 | a channel with queued data after a selected key was wanted for writing before and still is: `accept` opens a channel new to the selector, a teardown cancels, and a write that leaves data keeps the key |
| BroadcastServer.StepKeepsWriteInterest | src/nio_sims/NioBroadcastServer.java:114-157 | every server operation keeps the invariant |
| BroadcastServer.RunKeepsWriteInterest | src/nio_sims/NioBroadcastServer.java:114-157 | the invariant holds after any sequence of server operations |
| BroadcastServer.QueuedDataHasWriteInterest | src/nio_sims/NioBroadcastServer.java:116-132 | from a new server, after any operations, whenever change processing completes, every live channel with queued data is interested in WRITE alone |
| BroadcastServer.AcceptedIsRecipientUntilClosed | src/nio_sims/NioBroadcastServer.java:159-173 | an accepted connection is a recipient of every broadcast from another channel, or from itself in ATOMIC mode, until a read tears it down |
| IpcModes.Initial | src/gipc_sims/modes/IPCMode.java:15-16 | the mode starts as GIPC with no change in progress |
| IpcModes.TakeModeChanging | src/gipc_sims/modes/IPCMode.java:20-27 | the take is granted exactly when no change is in progress; the flag is raised only when consensus is required; the mode is untouched |
| IpcModes.SetChanging | src/gipc_sims/modes/IPCMode.java:29-32 | the flag is raised and the mode kept |
| IpcModes.UnsetChanging | src/gipc_sims/modes/IPCMode.java:34-38 | the flag is cleared and the mode kept |
| IpcModes.SetMode | src/gipc_sims/modes/IPCMode.java:40-45 | the mode is replaced and the flag kept |
| IpcModes.Get | src/gipc_sims/modes/IPCMode.java:51-65 | `get` blocks exactly while a change is in progress and consensus is required, and otherwise returns the current mode |
| IpcModes.SecondTakeFails | src/gipc_sims/modes/IPCMode.java:20-27 | with consensus required, a granted take makes the very next take fail |
| IpcModes.TakesGrantAtMostOnce | src/gipc_sims/modes/IPCMode.java:20-27 | of consecutive takes, with no other call between them, at most one is granted when consensus is required (exactly one if none was in progress); without consensus every take in the row gets the same answer and the flag never moves |
| IpcModes.ConsensusTakesGrantAtMostOnce | src/gipc_sims/modes/IPCMode.java:20-38 | over any calls with consensus required and no `unsetChanging`, with `set` and `setChanging` anywhere, at most one take is granted, none if a change was already in progress, and the flag is still raised at the end after a grant |
| IpcModes.UnsetReleases | src/gipc_sims/modes/IPCMode.java:34-38 | after `unsetChanging` the next take is granted and `get` returns the mode |
| IpcModes.ModeIsLastSet | src/gipc_sims/modes/IPCMode.java:40-42 | after any calls, the mode is the one most recently passed to `set` (or the starting mode) |
| IpcModes.GetReturnsLastSet | src/gipc_sims/modes/IPCMode.java:51-55 | from the initial state, `get` returns the mode last `set` (GIPC if none) unless it blocks |

Helpers of the rowed members have no row:
- `NioClient.ClientStep`, `NioClient.Run`, `BroadcastServer.ServerStep`,
  `BroadcastServer.ServerRun` and `Reactor.ApplyChanges` carry no contract of
  their own. They model the run loops (`NioClient.java:127-172`,
  `NioBroadcastServer.java:114-157`) and the pending-change loop
  (`NioBroadcastServer.java:118-129`). The rowed lemmas about runs and change
  processing state what they promise.
- `Reactor.SetInterest` (`interestOps`, `NioClient.java:264` and `:291-292`)
  and `WriteQueue.Wrap` (`ByteBuffer.wrap`, `NioBroadcastServer.java:73`) are
  one-line definitions. The rows of `NioClient.FinishConnection`,
  `Reactor.Write`, `BroadcastServer.Send` and `WriteQueue.Enqueue` state their
  effect.

## Left out

- The selector itself: `select`, `wakeup` and the selected-key set are not
  modelled. A ready key is an input event whose ready set is cut down to the
  key's interest set (`Reactor.ReadyOps`). Deregistering cancelled keys at
  the next `select` is not modelled either: a cancelled key stays in the model, marked invalid. This
  only matters for `keyFor`, and there it gives a `CancelledKey` fault where
  Java would dereference null. Both abort the iteration in the same way.
- Threads, `synchronized` blocks and `wait`/`notifyAll`: each producer call
  and each selector step is one step of an arbitrary event sequence. This
  covers every schedule in which the calls do not overlap. Two calls take
  their locks in parts, so the selector can run between them: the client's
  `connect` and the server's `broadcast` (the next two lines).
- NioClient.Connect: the three separately locked parts of `connect` (the
  REGISTER request at `NioClient.java:117`, the handler at `:80` and the queue
  at `:83-89`) are one step. Schedules in which the selector processes the
  registration, or a read reaches `handleResponse`, between them are not
  covered.
- BroadcastServer.Broadcast: the loop takes the locks once per key
  (`NioBroadcastServer.java:92-106`) and tests `isValid` as it reaches each
  key, and the whole broadcast is one step. Schedules in which the selector
  cancels a key or writes a recipient part-way through a broadcast are not
  covered. Each recipient's own request and buffer are still added together,
  as in the model.
- BroadcastServer.Send: `ByteBuffer.wrap(data)` queues a view of the
  caller's array, not a copy, and the model queues the bytes as a value. So
  byte conservation (`BroadcastServer.ServerRunConservesBytes`) assumes that
  no caller changes its array while its bytes are still queued. The worker is
  handed the server's reused `readBuffer.array()` (`NioBroadcastServer.java:206`).
  Bytes it passes on without copying can be overwritten by the next read
  before they are sent.
- BroadcastServer.Broadcast: each recipient gets a `ByteBuffer` of its own,
  with its own position, but all of them wrap the one array the caller
  passed. The model does not represent that sharing.
- BroadcastCopiesAreIndependent: states only that recipients' positions are
  independent. It follows from the model's value semantics alone, and would
  hold just as well if one buffer were queued for every recipient. That
  recipients share the backing array is not stated.
- Aborted selector iterations: an exception in a handler makes the run loop
  skip the remaining selected keys of that iteration. Skipping is covered,
  because any sequence of ready events is allowed. What the skipped keys
  carry into the next iteration is not (next line).
- Reactor.ReadyOps: a key left in Java's selected-key set keeps its old ready
  bits, and a later `select` only adds to them. A stale bit can therefore run
  a handler that the key's current interest set no longer asks for. An
  example is a stale OP_CONNECT running `finishConnection` after a WRITE
  request replaced CONNECT. The model cuts every ready set to the current
  interest set, so those runs are not covered.
- NioClient.Write: the model lets `write` succeed on a channel whose
  connection never finished, that is, one on which `finishConnection` never
  ran. In Java that `write` throws `NotYetConnectedException`. Results about
  the client's write path (for example `NioClient.QueuedDataHasWriteInterest`)
  are therefore weaker than "the bytes reach the wire" for such a channel.
- Sockets and the OS: opening, connecting, binding, reading, writing and
  accepting become parameters (`openOk`, `finished`, `ReadReply`,
  `WriteReply`, `pending`).
- Tracing and logging: the `port.trace` events, `LoggerEvents`,
  `System.out` and `printStackTrace` have no effect on state.
  `Logger.prepareSend` is taken to return its buffer unchanged.
- BroadcastServer.Read: does not state how many bytes the worker receives.
  The Java code passes `readBuffer.limit()` after `Logger.prepareReceive`, and
  that logger is not part of this model. The model states only whether the
  worker is called.
- The worker (`EchoWorker.processData`) and the `RspHandler` behaviour. The
  handler's answer is a function parameter `respond`.
- `String.getBytes`: messages are modelled as the bytes it produces.
- `sendSimuMode`, `sendIPCMode` and `sendConsensusModes` on `NioSender`. They
  only throw, and nothing else in the core depends on them.
- The `Server` RMI interface and the rest of `DistroHalloweenSimulation`
  (its command loop and `main`). Only its `MODE` is used, as the `mode`
  argument of `broadcast`.
- `startInThread` and the constructors' socket set-up, beyond the initial
  state they produce.
- The consensus launcher notification in `IPCMode.set`
  (`scl.onIPCModeChanged`), which is code outside this model.
- `waitForModeChanging` as a blocking loop: it is modelled by `IpcModes.Get`
  returning `None` while it would block.
- IpcModes.IsChanging has no contract of its own, because it only reads the
  flag. `Get` and `SecondTakeFails` state their results through it.
- Interest sets: the Java `int` bitmask is a set of operations. Every request
  in this code carries a single operation.
- BroadcastServer.Send: channels are plain identities, so a `send` naming the
  listener would set WRITE interest on the listener's key in the model. In
  Java `send` takes a `SocketChannel`, and the listener, a
  `ServerSocketChannel`, cannot be passed to it.
- BroadcastServer.ServerStep: a broadcast event whose key listing misses a key
  or lists one twice describes no real iteration of the key set and is
  ignored.
- NioClient.QueuedDataHasWriteInterest: proved only for runs whose change
  processing never throws. Once a request throws, the list is never cleared
  and no later request takes effect (`Reactor.FailedChangesRecur`).

=== FILE: client.dfy ===
/**
 The NIO client reactor: it opens one connection per `connect`, hands out a
 sender that frames each message with a trailing '|', and on its selector
 thread completes connections, reads responses into the registered handler
 and drains write queues.
 */
module NioClient {
  import opened Common
  import opened WriteQueue
  import opened Reactor

  /** The capacity of the client's `readBuffer`. */
  const ReadCapacity: nat := 8192

  /** An `RspHandler`, known by identity only; what it decides is given by a callback. */
  datatype Handler = Handler(id: nat)

  /** The client's tables next to the shared reactor state; `nextSock` names the next channel opened. */
  datatype Client = Client(core: State, handlers: map<Sock, Handler>, nextSock: Sock)

  /** The constructor: a fresh selector and empty tables. */
  function Init(): (c: Client)
    ensures c.core.keys == map[] && c.core.pendingChanges == [] && c.core.pendingData == map[]
    ensures c.handlers == map[] && Fresh(c)
  {
    Client(Empty(), map[], 0)
  }

  /** Every channel any table mentions was opened before `nextSock` was handed out. */
  ghost predicate Fresh(c: Client)
  {
    && (forall t :: t in c.core.keys ==> t < c.nextSock)
    && (forall t :: t in c.core.pendingData ==> t < c.nextSock)
    && (forall t :: t in c.core.sent ==> t < c.nextSock)
    && (forall t :: t in c.core.closed ==> t < c.nextSock)
    && (forall t :: t in c.handlers ==> t < c.nextSock)
    && (forall i :: 0 <= i < |c.core.pendingChanges| ==> c.core.pendingChanges[i].socket < c.nextSock)
  }

  /** A client together with the channel a `NioSender` was made for. */
  datatype Connection = Connection(client: Client, sender: Sock)

  /**
   `initiateConnection`: open a non-blocking channel, start connecting, and
   queue its registration for CONNECT (the caller is not the selector thread).
   `openOk` is false when opening or connecting throws; nothing is queued then.
   */
  function InitiateConnection(c: Client, openOk: bool): (r: Option<Connection>)
    ensures r.Some? <==> openOk
    ensures r.Some? ==>
      && r.value.client.core.pendingChanges
         == c.core.pendingChanges + [ChangeRequest(r.value.sender, Register, OpConnect)]
      && r.value.client.core == c.core.(pendingChanges := r.value.client.core.pendingChanges)
      && r.value.client.handlers == c.handlers
      && r.value.sender == c.nextSock && r.value.client.nextSock == c.nextSock + 1
    ensures r.Some? && Fresh(c) ==>
      && Fresh(r.value.client)
      && r.value.sender !in c.core.keys && r.value.sender !in c.handlers
      && r.value.sender !in c.core.pendingData && r.value.sender !in c.core.closed
      && r.value.sender !in c.core.sent
  {
    if !openOk then None
    else
      var s := c.nextSock;
      var core := c.core.(pendingChanges := c.core.pendingChanges + [ChangeRequest(s, Register, OpConnect)]);
      Some(Connection(Client(core, c.handlers, s + 1), s))
  }

  /**
   `connect`: initiate the connection, register the handler, and create the
   channel's write queue only if it has none.
   */
  function Connect(c: Client, handler: Handler, openOk: bool): (r: Option<Connection>)
    ensures r.Some? <==> openOk
    ensures r.Some? ==>
      var c' := r.value.client;
      var s := r.value.sender;
      && c'.core.pendingChanges == c.core.pendingChanges + [ChangeRequest(s, Register, OpConnect)]
      && c'.handlers == c.handlers[s := handler]
      && s in c'.core.pendingData
      && QueueOf(c'.core, s) == QueueOf(c.core, s)
      && (forall t :: t != s ==> (t in c'.core.pendingData <==> t in c.core.pendingData))
      && (forall t :: t != s ==> QueueOf(c'.core, t) == QueueOf(c.core, t))
      && c'.core.keys == c.core.keys && c'.core.sent == c.core.sent && c'.core.closed == c.core.closed
      && s == c.nextSock && c'.nextSock == c.nextSock + 1
    ensures r.Some? && Fresh(c) ==>
      && Fresh(r.value.client)
      && r.value.sender !in c.core.pendingData
      && r.value.client.core.pendingData[r.value.sender] == []
  {
    match InitiateConnection(c, openOk)
    case None => None
    case Some(conn) =>
      var s := conn.sender;
      var core := conn.client.core.(pendingData := EnsureQueue(conn.client.core.pendingData, s));
      Some(Connection(conn.client.(core := core, handlers := conn.client.handlers[s := handler]), s))
  }

  /**
   `NioSender.broadcast`: an empty payload does nothing. Otherwise a
   `CHANGEOPS(OP_WRITE)` request is appended first; then a missing queue throws
   (the request stays), and an existing queue gets one buffer holding the
   payload and the separator.
   */
  function SenderBroadcast(c: Client, s: Sock, payload: seq<byte>): (o: Outcome<Client>)
    ensures payload == [] ==> o == Outcome(c, None)
    ensures payload != [] ==>
      o.state.core.pendingChanges == c.core.pendingChanges + [ChangeRequest(s, ChangeOps, OpWrite)]
    ensures payload != [] && s !in c.core.pendingData ==>
      o.thrown == Some(MissingQueue) && o.state.core.pendingData == c.core.pendingData
    ensures payload != [] && s in c.core.pendingData ==>
      && o.thrown == None
      && o.state.core.pendingData == c.core.pendingData[s := c.core.pendingData[s] + [Wrap(Frame(payload))]]
      && PendingBytes(o.state.core.pendingData[s]) == PendingBytes(c.core.pendingData[s]) + Frame(payload)
    ensures o.state == c.(core := o.state.core)
    ensures o.state.core == c.core.(pendingChanges := o.state.core.pendingChanges, pendingData := o.state.core.pendingData)
  {
    if payload == [] then Outcome(c, None)
    else
      var requested := RequestWrite(c.core, s);
      if s !in requested.pendingData then Outcome(c.(core := requested), Some(MissingQueue))
      else Outcome(c.(core := AppendBuffer(requested, s, Frame(payload))), None)
  }

  /**
   The one buffer a non-empty broadcast adds is the payload followed by a
   single '|', one byte longer than the payload, and still unwritten.
   */
  lemma BroadcastEnqueuesOneFrame(c: Client, s: Sock, payload: seq<byte>)
    requires payload != [] && s in c.core.pendingData
    ensures var q := SenderBroadcast(c, s, payload).state.core.pendingData[s];
      && |q| == |c.core.pendingData[s]| + 1
      && q[..|q| - 1] == c.core.pendingData[s]
      && q[|q| - 1].consumed == []
      && |q[|q| - 1].remaining| == |payload| + 1
      && q[|q| - 1].remaining[..|payload|] == payload
      && q[|q| - 1].remaining[|payload|] == Separator
  {
  }

  /** Whether `s` has a key that has not been cancelled. */
  predicate Live(st: State, s: Sock)
  {
    s in st.keys && st.keys[s].valid
  }

  /**
   `finishConnection`: if completing the connection fails the key is cancelled
   (the channel stays open). Otherwise the interest set becomes READ when no
   data is waiting and WRITE when some is.
   */
  function FinishConnection(c: Client, s: Sock, finished: bool): (c': Client)
    requires Live(c.core, s)
    ensures !finished ==> c'.core == Cancel(c.core, s) && !c'.core.keys[s].valid
    ensures finished ==>
      && Live(c'.core, s)
      && c'.core.keys[s].interest == (if QueueOf(c.core, s) == [] then {OpRead} else {OpWrite})
    ensures c' == c.(core := c'.core) && c'.core == c.core.(keys := c'.core.keys)
    ensures c'.core.keys.Keys == c.core.keys.Keys
    ensures forall t :: t != s && t in c.core.keys ==> c'.core.keys[t] == c.core.keys[t]
  {
    if !finished then c.(core := Cancel(c.core, s))
    else if s !in c.core.pendingData || c.core.pendingData[s] == [] then c.(core := SetInterest(c.core, s, OpRead))
    else c.(core := SetInterest(c.core, s, OpWrite))
  }

  /** The bytes one read copies: as many as are available, up to the buffer's capacity. */
  function ReadChunk(available: seq<byte>): (chunk: seq<byte>)
    ensures |chunk| == Min(|available|, ReadCapacity) && chunk <= available
  {
    available[..Min(|available|, ReadCapacity)]
  }

  /** The client after an event, the bytes handed to a response handler, and any exception. */
  datatype Handled = Handled(client: Client, delivered: Option<seq<byte>>, thrown: Option<Fault>)

  /**
   `handleResponse`: look up the channel's handler (a missing one is a null
   dereference), give it exactly the bytes read, and close the channel and
   cancel its key if the handler answers true.
   */
  function HandleResponse(c: Client, s: Sock, data: seq<byte>, respond: (Handler, seq<byte>) -> bool): (h: Handled)
    ensures s !in c.handlers ==> h == Handled(c, None, Some(NullPointer))
    ensures s in c.handlers ==> h.delivered == Some(data) && h.thrown == None
    ensures s in c.handlers && respond(c.handlers[s], data) ==>
      h.client.core == Close(c.core, s) && s in h.client.core.closed
    ensures s in c.handlers && !respond(c.handlers[s], data) ==> h.client == c
    ensures h.client == c.(core := h.client.core)
  {
    if s !in c.handlers then Handled(c, None, Some(NullPointer))
    else if respond(c.handlers[s], data) then Handled(c.(core := Close(c.core, s)), Some(data), None)
    else Handled(c, Some(data), None)
  }

  /**
   `read`: an exception or end of stream closes the channel and cancels its
   key without calling the handler; otherwise the handler gets exactly the
   bytes read.
   */
  function Read(c: Client, s: Sock, reply: ReadReply, respond: (Handler, seq<byte>) -> bool): (h: Handled)
    ensures !reply.Arrived? ==> h == Handled(c.(core := Close(c.core, s)), None, None)
    ensures !reply.Arrived? ==> s in h.client.core.closed && (s in c.core.keys ==> !h.client.core.keys[s].valid)
    ensures reply.Arrived? && s in c.handlers ==>
      && h.delivered == Some(ReadChunk(reply.available))
      && |h.delivered.value| == Min(|reply.available|, ReadCapacity)
    ensures h.delivered.Some? ==> reply.Arrived? && s in c.handlers
    // arrived bytes go to the handler, whose answer decides whether the channel is closed
    ensures reply.Arrived? && s !in c.handlers ==> h == Handled(c, None, Some(NullPointer))
    ensures reply.Arrived? && s in c.handlers && respond(c.handlers[s], ReadChunk(reply.available)) ==>
      h.client.core == Close(c.core, s) && h.thrown == None
    ensures reply.Arrived? && s in c.handlers && !respond(c.handlers[s], ReadChunk(reply.available)) ==>
      h.client == c && h.thrown == None
    ensures h.client == c.(core := h.client.core)
    ensures h.client.core == c.core.(keys := h.client.core.keys, closed := h.client.core.closed)
  {
    match reply
    case ReadFails => Handled(c.(core := Close(c.core, s)), None, None)
    case EndOfStream => Handled(c.(core := Close(c.core, s)), None, None)
    case Arrived(available) => HandleResponse(c, s, ReadChunk(available), respond)
  }

  /** The client's `write`: the shared drain loop and interest update. */
  function Write(c: Client, s: Sock, rs: seq<WriteReply>): (h: Handled)
    requires s in c.core.keys
    ensures SentOn(h.client.core, s) + PendingBytes(QueueOf(h.client.core, s))
         == SentOn(c.core, s) + PendingBytes(QueueOf(c.core, s))
    ensures h.client.core.keys.Keys == c.core.keys.Keys
    ensures h.client.core.pendingData.Keys == c.core.pendingData.Keys
    // the queue left is what the drain loop leaves; only a throwing write, or a missing queue, throws
    ensures s !in c.core.pendingData ==> h.thrown == Some(NullPointer) && h.client == c
    ensures s in c.core.pendingData ==> QueueOf(h.client.core, s) == Drain(c.core.pendingData[s], rs).queue
    ensures h.thrown == Some(IoFailure) ==> Fails in rs
    ensures s in c.core.pendingData && Fails !in rs ==> h.thrown == None
    ensures s in c.core.pendingData && c.core.pendingData[s] != [] && NextReply(rs).Accepts? && NextReply(rs).offered >= 1 ==>
      Backlog(QueueOf(h.client.core, s)) < Backlog(QueueOf(c.core, s))
    ensures h.thrown == None ==>
      && (QueueOf(h.client.core, s) == [] ==> h.client.core.keys[s].interest == {OpRead})
      && (QueueOf(h.client.core, s) != [] ==> h.client.core.keys[s] == c.core.keys[s])
    ensures h.thrown != None ==> h.client.core.keys == c.core.keys
    ensures h.delivered == None && h.client == c.(core := h.client.core)
  {
    var o := Reactor.Write(c.core, s, rs);
    Handled(c.(core := o.state), None, o.thrown)
  }

  /** The handler the run loop picks for a ready key: connect, then read, then write. */
  function ClientHandler(ready: set<Op>): (r: Option<Op>)
    ensures r.Some? ==> r.value in ready && r.value != OpAccept
    ensures r == None <==> (OpConnect !in ready && OpRead !in ready && OpWrite !in ready)
    ensures r == Some(OpRead) ==> OpConnect !in ready
    ensures r == Some(OpWrite) ==> OpConnect !in ready && OpRead !in ready
  {
    if OpConnect in ready then Some(OpConnect)
    else if OpRead in ready then Some(OpRead)
    else if OpWrite in ready then Some(OpWrite)
    else None
  }

  /** What the OS does for one ready key: whether connecting completes, what a read meets, what writes accept. */
  datatype OsReply = OsReply(connectFinishes: bool, read: ReadReply, writes: seq<WriteReply>)

  /**
   One selected key: an invalid key is skipped; otherwise exactly one handler
   runs, chosen by priority among the ready operations.
   */
  function Dispatch(c: Client, s: Sock, ready: set<Op>, os: OsReply,
                    respond: (Handler, seq<byte>) -> bool): (h: Handled)
    ensures !Live(c.core, s) || ClientHandler(ready) == None ==> h == Handled(c, None, None)
    ensures h.delivered.Some? ==> Live(c.core, s) && ClientHandler(ready) == Some(OpRead)
    ensures ClientHandler(ready) != Some(OpWrite) ==>
      h.client.core.pendingData == c.core.pendingData && h.client.core.sent == c.core.sent
    ensures h.client.handlers == c.handlers && h.client.nextSock == c.nextSock
    ensures h.client.core.pendingChanges == c.core.pendingChanges
    ensures h.client.core.keys.Keys == c.core.keys.Keys && h.client.core.pendingData.Keys == c.core.pendingData.Keys
    // the chosen handler is the one that runs
    ensures Live(c.core, s) && ClientHandler(ready) == Some(OpConnect) ==>
      h == Handled(FinishConnection(c, s, os.connectFinishes), None, None)
    ensures Live(c.core, s) && ClientHandler(ready) == Some(OpRead) ==> h == Read(c, s, os.read, respond)
    ensures Live(c.core, s) && ClientHandler(ready) == Some(OpRead) && !os.read.Arrived? ==>
      s in h.client.core.closed && !h.client.core.keys[s].valid
    ensures Live(c.core, s) && ClientHandler(ready) == Some(OpWrite) ==> h == Write(c, s, os.writes)
    ensures Live(c.core, s) && ClientHandler(ready) == Some(OpWrite) && s in c.core.pendingData ==>
      QueueOf(h.client.core, s) == Drain(c.core.pendingData[s], os.writes).queue
  {
    if !Live(c.core, s) then Handled(c, None, None)
    else
      match ClientHandler(ready)
      case None => Handled(c, None, None)
      case Some(op) =>
        if op == OpConnect then Handled(FinishConnection(c, s, os.connectFinishes), None, None)
        else if op == OpRead then Read(c, s, os.read, respond)
        else Write(c, s, os.writes)
  }

  /** Whatever one ready key does, each channel's wire followed by its queue keeps its bytes. */
  lemma DispatchConservesBytes(c: Client, s: Sock, ready: set<Op>, os: OsReply,
                               respond: (Handler, seq<byte>) -> bool, t: Sock)
    ensures var h := Dispatch(c, s, ready, os, respond);
      && SentOn(h.client.core, t) + PendingBytes(QueueOf(h.client.core, t))
         == SentOn(c.core, t) + PendingBytes(QueueOf(c.core, t))
      && (t in c.core.pendingData ==> t in h.client.core.pendingData)
  {
    if Live(c.core, s) && ClientHandler(ready) == Some(OpWrite) {
      var h := Write(c, s, os.writes);
      assert Dispatch(c, s, ready, os, respond) == h;
      if t != s {
        WriteLeavesOtherQueues(c.core, s, os.writes, t);
      }
    }
  }

  /** The operations that drive the client, from producer threads and from the selector thread. */
  datatype ClientEvent =
    | DoConnect(handler: Handler, openOk: bool)
    | DoBroadcast(sender: Sock, payload: seq<byte>)
    | DoProcessChanges
    | DoReady(socket: Sock, ready: set<Op>, os: OsReply)

  function ClientStep(c: Client, e: ClientEvent, respond: (Handler, seq<byte>) -> bool): Client
  {
    match e
    case DoConnect(handler, openOk) =>
      (match Connect(c, handler, openOk) case None => c case Some(conn) => conn.client)
    case DoBroadcast(sender, payload) => SenderBroadcast(c, sender, payload).state
    case DoProcessChanges => c.(core := ProcessChanges(ClientRole, c.core).state)
    case DoReady(socket, ready, os) => Dispatch(c, socket, ReadyOps(c.core, socket, ready), os, respond).client
  }

  function Run(c: Client, events: seq<ClientEvent>, respond: (Handler, seq<byte>) -> bool): Client
    decreases |events|
  {
    if events == [] then c else Run(ClientStep(c, events[0], respond), events[1..], respond)
  }

  /** The frames of the non-empty broadcasts on `s`, in call order. */
  function FramesFor(events: seq<ClientEvent>, s: Sock): seq<byte>
    decreases |events|
  {
    if events == [] then []
    else
      (if events[0].DoBroadcast? && events[0].sender == s && events[0].payload != []
       then Frame(events[0].payload) else [])
      + FramesFor(events[1..], s)
  }

  lemma StepConservesBytes(c: Client, e: ClientEvent, respond: (Handler, seq<byte>) -> bool, s: Sock)
    requires s in c.core.pendingData
    ensures var c' := ClientStep(c, e, respond);
      && s in c'.core.pendingData
      && SentOn(c'.core, s) + PendingBytes(c'.core.pendingData[s])
         == SentOn(c.core, s) + PendingBytes(c.core.pendingData[s])
            + (if e.DoBroadcast? && e.sender == s && e.payload != [] then Frame(e.payload) else [])
  {
    match e
    case DoConnect(handler, openOk) =>
    case DoBroadcast(sender, payload) =>
      if sender == s && payload != [] {
        AppendAssoc(SentOn(c.core, s), PendingBytes(c.core.pendingData[s]), Frame(payload));
      }
    case DoProcessChanges =>
    case DoReady(socket, ready, os) =>
      DispatchConservesBytes(c, socket, ReadyOps(c.core, socket, ready), os, respond, s);
  }

  /**
   Over any sequence of client operations, the bytes written to a channel
   followed by those still queued for it are exactly what was there before
   followed by the frames of the later broadcasts on it, in call order.
   */
  lemma {:induction false} RunConservesBytes(c: Client, events: seq<ClientEvent>,
                                             respond: (Handler, seq<byte>) -> bool, s: Sock)
    requires s in c.core.pendingData
    ensures s in Run(c, events, respond).core.pendingData
    ensures SentOn(Run(c, events, respond).core, s) + PendingBytes(Run(c, events, respond).core.pendingData[s])
         == SentOn(c.core, s) + PendingBytes(c.core.pendingData[s]) + FramesFor(events, s)
    decreases |events|
  {
    if events != [] {
      var c1 := ClientStep(c, events[0], respond);
      StepConservesBytes(c, events[0], respond, s);
      RunConservesBytes(c1, events[1..], respond, s);
      var before := SentOn(c.core, s) + PendingBytes(c.core.pendingData[s]);
      var e := events[0];
      var frame := if e.DoBroadcast? && e.sender == s && e.payload != [] then Frame(e.payload) else [];
      assert FramesFor(events, s) == frame + FramesFor(events[1..], s);
      AppendAssoc(before, frame, FramesFor(events[1..], s));
    }
  }

  /**
   For the first connection of a new client, whatever happens afterwards, the
   bytes sent on it are a prefix of the frames broadcast on it.
   */
  lemma ConnectionWireIsPrefixOfFrames(handler: Handler, events: seq<ClientEvent>,
                                       respond: (Handler, seq<byte>) -> bool)
    ensures var conn := Connect(Init(), handler, true).value;
      SentOn(Run(conn.client, events, respond).core, conn.sender) <= FramesFor(events, conn.sender)
  {
    var conn := Connect(Init(), handler, true).value;
    var last := Run(conn.client, events, respond);
    RunConservesBytes(conn.client, events, respond, conn.sender);
    assert SentOn(conn.client.core, conn.sender) == [];
    assert PendingBytes(conn.client.core.pendingData[conn.sender]) == [];
    var w := SentOn(last.core, conn.sender);
    assert w + PendingBytes(last.core.pendingData[conn.sender]) == FramesFor(events, conn.sender);
    assert FramesFor(events, conn.sender)[..|w|] == w;
  }

  /**
   What a pending request can be: a REGISTER for a channel that has been
   opened but has no key yet, or a request for WRITE.
   */
  predicate PendingRequestShape(c: Client, r: ChangeRequest)
  {
    if r.kind == Register then r.socket < c.nextSock && r.socket !in c.core.keys else r.op == OpWrite
  }

  /** `t` will be written: its last pending request asks for WRITE, or its key does, or its key is cancelled. */
  predicate WriteWanted(c: Client, t: Sock)
  {
    || LastOp(ClientRole, c.core.pendingChanges, t) == Some(OpWrite)
    || (t in c.core.keys && (!c.core.keys[t].valid || c.core.keys[t].interest == {OpWrite}))
  }

  /**
   The interest invariant the write path relies on, with the bookkeeping it
   needs: every channel with queued data is wanted for writing.
   */
  ghost predicate WriteInterestKept(c: Client)
  {
    && (forall t :: t in c.core.keys ==> t < c.nextSock)
    && (forall t :: t in c.core.pendingData ==> t < c.nextSock)
    && (forall i :: 0 <= i < |c.core.pendingChanges| ==> PendingRequestShape(c, c.core.pendingChanges[i]))
    && (forall t :: t in c.core.pendingData && c.core.pendingData[t] != [] ==> WriteWanted(c, t))
  }

  lemma ConnectKeepsWriteInterest(c: Client, handler: Handler, openOk: bool)
    requires WriteInterestKept(c)
    ensures Connect(c, handler, openOk).Some? ==> WriteInterestKept(Connect(c, handler, openOk).value.client)
  {
    if openOk {
      var conn := Connect(c, handler, openOk).value;
      var c', s := conn.client, conn.sender;
      var r := ChangeRequest(s, Register, OpConnect);
      forall i | 0 <= i < |c'.core.pendingChanges|
        ensures PendingRequestShape(c', c'.core.pendingChanges[i])
      {
        if i < |c.core.pendingChanges| {
          assert c'.core.pendingChanges[i] == c.core.pendingChanges[i];
          assert PendingRequestShape(c, c.core.pendingChanges[i]);
        }
      }
      forall t | t in c'.core.pendingData && c'.core.pendingData[t] != []
        ensures WriteWanted(c', t)
      {
        assert t != s;
        assert c'.core.pendingData[t] == QueueOf(c'.core, t) == QueueOf(c.core, t);
        assert WriteWanted(c, t);
        LastOpAppend(ClientRole, c.core.pendingChanges, r, t);
      }
    }
  }

  lemma BroadcastKeepsWriteInterest(c: Client, sender: Sock, payload: seq<byte>)
    requires WriteInterestKept(c)
    ensures WriteInterestKept(SenderBroadcast(c, sender, payload).state)
  {
    if payload != [] {
      var c' := SenderBroadcast(c, sender, payload).state;
      var r := ChangeRequest(sender, ChangeOps, OpWrite);
      forall i | 0 <= i < |c'.core.pendingChanges|
        ensures PendingRequestShape(c', c'.core.pendingChanges[i])
      {
        if i < |c.core.pendingChanges| {
          assert c'.core.pendingChanges[i] == c.core.pendingChanges[i];
          assert PendingRequestShape(c, c.core.pendingChanges[i]);
        }
      }
      forall t | t in c'.core.pendingData && c'.core.pendingData[t] != []
        ensures WriteWanted(c', t)
      {
        LastOpAppend(ClientRole, c.core.pendingChanges, r, t);
        if t != sender {
          assert WriteWanted(c, t);
        }
      }
    }
  }

  lemma ProcessChangesKeepsWriteInterest(c: Client)
    requires WriteInterestKept(c) && ProcessChanges(ClientRole, c.core).thrown == None
    ensures WriteInterestKept(c.(core := ProcessChanges(ClientRole, c.core).state))
  {
    var c' := c.(core := ProcessChanges(ClientRole, c.core).state);
    var pc := c.core.pendingChanges;
    ApplyChangesKeysBounded(ClientRole, c.core.keys, c.core.closed, pc, c.nextSock);
    forall t | t in c'.core.pendingData && c'.core.pendingData[t] != []
      ensures WriteWanted(c', t)
    {
      assert WriteWanted(c, t);
      ProcessChangesLastWins(ClientRole, c.core, t);
      if t in c.core.keys {
        forall i | 0 <= i < |pc|
          ensures (pc[i].kind == Register ==> pc[i].socket != t) && (pc[i].kind == ChangeOps ==> pc[i].op == OpWrite)
        {
          assert PendingRequestShape(c, pc[i]);
        }
        LastOpOnlyWrite(ClientRole, pc, t);
      }
    }
  }

  lemma DispatchKeepsWriteInterest(c: Client, s: Sock, ready: set<Op>, os: OsReply,
                                   respond: (Handler, seq<byte>) -> bool)
    requires WriteInterestKept(c)
    ensures WriteInterestKept(Dispatch(c, s, ready, os, respond).client)
  {
    var c' := Dispatch(c, s, ready, os, respond).client;
    forall i | 0 <= i < |c'.core.pendingChanges|
      ensures PendingRequestShape(c', c'.core.pendingChanges[i])
    {
      assert PendingRequestShape(c, c.core.pendingChanges[i]);
    }
    forall t | t in c'.core.pendingData && c'.core.pendingData[t] != []
      ensures WriteWanted(c', t)
    {
      assert t in c.core.pendingData && c.core.pendingData[t] != [] ==> WriteWanted(c, t);
      DispatchKeepsWriteWanted(c, s, ready, os, respond, t);
    }
  }

  /** A channel that still has queued data after a selected key was wanted for writing before and still is. */
  lemma DispatchKeepsWriteWanted(c: Client, s: Sock, ready: set<Op>, os: OsReply,
                                 respond: (Handler, seq<byte>) -> bool, t: Sock)
    requires t in c.core.pendingData && c.core.pendingData[t] != [] ==> WriteWanted(c, t)
    requires var c' := Dispatch(c, s, ready, os, respond).client;
      t in c'.core.pendingData && c'.core.pendingData[t] != []
    ensures WriteWanted(Dispatch(c, s, ready, os, respond).client, t)
  {
    if Live(c.core, s) && ClientHandler(ready) == Some(OpConnect) {
      FinishKeepsWriteWanted(c, s, os.connectFinishes, t);
    } else if Live(c.core, s) && ClientHandler(ready) == Some(OpRead) {
      ReadKeepsWriteWanted(c, s, os.read, respond, t);
    } else if Live(c.core, s) && ClientHandler(ready) == Some(OpWrite) {
      WriteKeepsWriteWanted(c, s, os.writes, t);
    }
  }

  lemma FinishKeepsWriteWanted(c: Client, s: Sock, finished: bool, t: Sock)
    requires Live(c.core, s) && t in c.core.pendingData && c.core.pendingData[t] != [] && WriteWanted(c, t)
    ensures WriteWanted(FinishConnection(c, s, finished), t)
  {
  }

  lemma ReadKeepsWriteWanted(c: Client, s: Sock, reply: ReadReply, respond: (Handler, seq<byte>) -> bool, t: Sock)
    requires WriteWanted(c, t)
    ensures WriteWanted(Read(c, s, reply, respond).client, t)
  {
    var c' := Read(c, s, reply, respond).client;
    assert c'.core.pendingChanges == c.core.pendingChanges;
    if t in c.core.keys && t != s {
      assert !reply.Arrived? ==> c'.core == Close(c.core, s);
      assert c'.core.keys[t] == c.core.keys[t];
    }
  }

  lemma WriteKeepsWriteWanted(c: Client, s: Sock, rs: seq<WriteReply>, t: Sock)
    requires s in c.core.keys
    requires t in c.core.pendingData && c.core.pendingData[t] != [] ==> WriteWanted(c, t)
    requires var c' := Write(c, s, rs).client;
      t in c'.core.pendingData && c'.core.pendingData[t] != []
    ensures WriteWanted(Write(c, s, rs).client, t)
  {
    var c' := Write(c, s, rs).client;
    if t == s {
      assert ResumesSuffix(QueueOf(c'.core, s), QueueOf(c.core, s));
    } else {
      WriteLeavesOtherQueues(c.core, s, rs, t);
    }
    assert c'.core.pendingChanges == c.core.pendingChanges;
  }

  /** Whether every change-processing step of a run, from `c`, throws nothing. */
  ghost predicate ProcessingNeverFails(c: Client, events: seq<ClientEvent>, respond: (Handler, seq<byte>) -> bool)
    decreases |events|
  {
    events != [] ==>
      && (events[0].DoProcessChanges? ==> ProcessChanges(ClientRole, c.core).thrown == None)
      && ProcessingNeverFails(ClientStep(c, events[0], respond), events[1..], respond)
  }

  lemma StepKeepsWriteInterest(c: Client, e: ClientEvent, respond: (Handler, seq<byte>) -> bool)
    requires WriteInterestKept(c)
    requires e.DoProcessChanges? ==> ProcessChanges(ClientRole, c.core).thrown == None
    ensures WriteInterestKept(ClientStep(c, e, respond))
  {
    match e
    case DoConnect(handler, openOk) => ConnectKeepsWriteInterest(c, handler, openOk);
    case DoBroadcast(sender, payload) => BroadcastKeepsWriteInterest(c, sender, payload);
    case DoProcessChanges => ProcessChangesKeepsWriteInterest(c);
    case DoReady(socket, ready, os) =>
      DispatchKeepsWriteInterest(c, socket, ReadyOps(c.core, socket, ready), os, respond);
  }

  lemma {:induction false} RunKeepsWriteInterest(c: Client, events: seq<ClientEvent>,
                                                 respond: (Handler, seq<byte>) -> bool)
    requires WriteInterestKept(c) && ProcessingNeverFails(c, events, respond)
    ensures WriteInterestKept(Run(c, events, respond))
    decreases |events|
  {
    if events != [] {
      StepKeepsWriteInterest(c, events[0], respond);
      RunKeepsWriteInterest(ClientStep(c, events[0], respond), events[1..], respond);
    }
  }

  /**
   As long as change processing never throws, whenever it completes every live
   channel with queued data is interested in WRITE. This does not mean every
   queued frame is sent: on a channel whose connection never finished
   (`BroadcastBeforeFinishLosesConnect`) Java's `write` throws
   `NotYetConnectedException`, which the model's `Write` does not check.
   */
  lemma QueuedDataHasWriteInterest(events: seq<ClientEvent>, respond: (Handler, seq<byte>) -> bool, t: Sock)
    requires ProcessingNeverFails(Init(), events, respond)
    ensures var c := Run(Init(), events, respond);
      var p := ProcessChanges(ClientRole, c.core);
      p.thrown == None && Live(p.state, t) && QueueOf(p.state, t) != [] ==> p.state.keys[t].interest == {OpWrite}
  {
    var c := Run(Init(), events, respond);
    RunKeepsWriteInterest(Init(), events, respond);
    if ProcessChanges(ClientRole, c.core).thrown == None {
      ProcessChangesKeepsWriteInterest(c);
      var c' := c.(core := ProcessChanges(ClientRole, c.core).state);
      if Live(c'.core, t) && QueueOf(c'.core, t) != [] {
        assert WriteWanted(c', t);
      }
    }
  }

  /**
   Connecting, processing the registration, broadcasting before the connection
   has completed, and processing again leaves the new key interested in WRITE
   only: the CONNECT interest is replaced, so `finishConnection` is never
   selected for the channel.
   */
  lemma BroadcastBeforeFinishLosesConnect(handler: Handler, payload: seq<byte>, respond: (Handler, seq<byte>) -> bool)
    requires payload != []
    ensures var c := Run(Init(), [DoConnect(handler, true), DoProcessChanges, DoBroadcast(0, payload), DoProcessChanges], respond);
      && 0 in c.core.keys && c.core.keys[0] == Key({OpWrite}, true)
      && forall ready :: ClientHandler(ReadyOps(c.core, 0, ready)) != Some(OpConnect)
  {
    var events := [DoConnect(handler, true), DoProcessChanges, DoBroadcast(0, payload), DoProcessChanges];
    var c1 := ClientStep(Init(), events[0], respond);
    var c2 := ClientStep(c1, events[1], respond);
    RegisteredForConnect(handler, respond);
    var c3 := ClientStep(c2, events[2], respond);
    var c4 := ClientStep(c3, events[3], respond);
    WriteRequestReplacesConnect(c2, payload, respond);
    assert Run(c4, [], respond) == c4;
    assert Run(c3, [events[3]], respond) == c4;
    assert Run(c2, events[2..], respond) == c4;
    assert Run(c1, events[1..], respond) == c4;
  }

  /** The first connection of a new client, once its registration is processed, is interested in CONNECT. */
  lemma RegisteredForConnect(handler: Handler, respond: (Handler, seq<byte>) -> bool)
    ensures var c := ClientStep(ClientStep(Init(), DoConnect(handler, true), respond), DoProcessChanges, respond);
      && c.core.keys == map[0 := Key({OpConnect}, true)]
      && c.core.pendingChanges == [] && c.core.closed == {} && 0 in c.core.pendingData
  {
    var register := ChangeRequest(0, Register, OpConnect);
    var c1 := ClientStep(Init(), DoConnect(handler, true), respond);
    assert c1.core.pendingChanges == [register] && c1.core.keys == map[] && c1.core.closed == {};
    assert ApplyChanges(ClientRole, map[], {}, [register]) == Applied(map[0 := Key({OpConnect}, true)], None) by {
      assert [register][1..] == [];
    }
  }

  /** A broadcast on that connection, once processed, replaces its CONNECT interest with WRITE. */
  lemma WriteRequestReplacesConnect(c: Client, payload: seq<byte>, respond: (Handler, seq<byte>) -> bool)
    requires c.core.keys == map[0 := Key({OpConnect}, true)]
    requires c.core.pendingChanges == [] && c.core.closed == {} && 0 in c.core.pendingData
    requires payload != []
    ensures ClientStep(ClientStep(c, DoBroadcast(0, payload), respond), DoProcessChanges, respond).core.keys
         == map[0 := Key({OpWrite}, true)]
  {
    var write := ChangeRequest(0, ChangeOps, OpWrite);
    var c3 := ClientStep(c, DoBroadcast(0, payload), respond);
    assert c3.core.pendingChanges == [write] && c3.core.keys == c.core.keys && c3.core.closed == {};
    assert ApplyChanges(ClientRole, c.core.keys, {}, [write]) == Applied(map[0 := Key({OpWrite}, true)], None) by {
      assert [write][1..] == [];
    }
  }
}

=== FILE: common.dfy ===
/**
 Types shared by the NIO client and the NIO broadcast server: bytes, channel
 identities, selection-key operations and the exceptions the reactor code can
 raise.
 */
module Common {

  /** An octet of a Java `byte[]`; the sign of Java's byte plays no role here. */
  newtype byte = x: int | 0 <= x < 256

  /** The identity of a channel. Identities come from a counter and are never reused. */
  type Sock = nat

  /** The `SelectionKey` operations (`OP_READ`, `OP_WRITE`, `OP_CONNECT`, `OP_ACCEPT`). */
  datatype Op = OpRead | OpWrite | OpConnect | OpAccept

  /** The exceptions the reactor code can raise; the run loop catches and prints each of them. */
  datatype Fault =
    | NullPointer     // a lookup (`keyFor`, a table `get`, `accept`) returned null
    | CancelledKey    // `interestOps` or `register` on a cancelled key
    | ClosedChannel   // `register` on a closed channel
    | IoFailure       // the OS reported an I/O error on a write
    | MissingQueue    // the client's own "queue was not initialized" RuntimeException
    | WrongChannel    // a cast of `key.channel()` to the other channel class (`ClassCastException`)

  datatype Option<T> = None | Some(value: T)

  /** What one `SocketChannel.read` meets: an `IOException`, end of stream (-1), or the bytes available. */
  datatype ReadReply = ReadFails | EndOfStream | Arrived(available: seq<byte>)

  /** The state after a call and the exception it threw, if any. */
  datatype Outcome<S> = Outcome(state: S, thrown: Option<Fault>)

  function Min(a: nat, b: nat): (m: nat)
    ensures m <= a && m <= b && (m == a || m == b)
  {
    if a <= b then a else b
  }

  lemma AppendAssoc<T>(a: seq<T>, b: seq<T>, c: seq<T>)
    ensures (a + b) + c == a + (b + c)
  {
  }
}

=== FILE: ipc_mode.dfy ===
/**
 The `IPCMode` class's static state machine: the current IPC mode and a
 "mode change in progress" flag that `takeModeChanging` tests and sets. Whether
 IPC consensus is required is an input; reading the mode while a change is in
 progress and consensus is required blocks until the flag is cleared.
 */
module IpcModes {
  import opened Common

  datatype IpcMode = Nio | Rmi | Gipc | NonatomicAsync | NonatomicSync | AtomicAsync | AtomicSync | Paxos

  /** The static fields `mode` and `mode_changing`. */
  datatype ModeState = ModeState(mode: IpcMode, changing: bool)

  /** The static initialisers: mode GIPC, no change in progress. */
  function Initial(): (st: ModeState)
    ensures st.mode == Gipc && !st.changing
  {
    ModeState(Gipc, false)
  }

  /** The state `takeModeChanging` leaves and what it returns. */
  datatype Taken = Taken(state: ModeState, granted: bool)

  /**
   `takeModeChanging`: refused while a change is in progress; otherwise
   granted, and the flag is raised only when consensus is required.
   */
  function TakeModeChanging(st: ModeState, requireConsensus: bool): (t: Taken)
    ensures t.granted <==> !st.changing
    ensures t.state.mode == st.mode
    ensures t.state.changing <==> st.changing || requireConsensus
  {
    if st.changing then Taken(st, false)
    else if !requireConsensus then Taken(st, true)
    else Taken(st.(changing := true), true)
  }

  /** `setChanging`: the flag is raised whatever it was. */
  function SetChanging(st: ModeState): (st': ModeState)
    ensures st'.changing && st'.mode == st.mode
  {
    st.(changing := true)
  }

  /** `unsetChanging`: the flag is cleared and waiting readers are woken. */
  function UnsetChanging(st: ModeState): (st': ModeState)
    ensures !st'.changing && st'.mode == st.mode
  {
    st.(changing := false)
  }

  /** `set(m)`: the mode is replaced; the consensus launcher's notification is not modelled. */
  function SetMode(st: ModeState, m: IpcMode): (st': ModeState)
    ensures st'.mode == m && st'.changing == st.changing
  {
    st.(mode := m)
  }

  /** `isChanging`. */
  function IsChanging(st: ModeState): bool
  {
    st.changing
  }

  /**
   `get`: `None` while the call would block (a change is in progress and
   consensus is required), otherwise the current mode.
   */
  function Get(st: ModeState, requireConsensus: bool): (r: Option<IpcMode>)
    ensures r.None? <==> IsChanging(st) && requireConsensus
    ensures r.Some? ==> r.value == st.mode
  {
    if st.changing && requireConsensus then None else Some(st.mode)
  }

  /** With consensus required, a granted take makes the very next take fail. */
  lemma SecondTakeFails(st: ModeState)
    requires TakeModeChanging(st, true).granted
    ensures !TakeModeChanging(TakeModeChanging(st, true).state, true).granted
    ensures IsChanging(TakeModeChanging(st, true).state)
  {
  }

  /** `n` takes in a row: the final state and how many were granted. */
  function TakeRepeatedly(st: ModeState, n: nat, requireConsensus: bool): (ModeState, nat)
    decreases n
  {
    if n == 0 then (st, 0)
    else
      var t := TakeModeChanging(st, requireConsensus);
      var rest := TakeRepeatedly(t.state, n - 1, requireConsensus);
      (rest.0, rest.1 + (if t.granted then 1 else 0))
  }

  /**
   Takes in a row, with nothing between them: with consensus required at most
   one is granted, and exactly one if no change was in progress. Without
   consensus a take leaves the flag as it was, so every take in the row gets
   the same answer. `ConsensusTakesGrantAtMostOnce` allows other calls between
   the takes.
   */
  lemma {:induction false} TakesGrantAtMostOnce(st: ModeState, n: nat, requireConsensus: bool)
    ensures requireConsensus ==>
      TakeRepeatedly(st, n, true).1 == (if n == 0 || st.changing then 0 else 1)
    ensures !requireConsensus ==> TakeRepeatedly(st, n, false) == (st, if st.changing then 0 else n)
    decreases n
  {
    if n > 0 {
      var t := TakeModeChanging(st, requireConsensus);
      TakesGrantAtMostOnce(t.state, n - 1, requireConsensus);
      if !requireConsensus {
        assert t.state == st;
      }
    }
  }

  /** Clearing the flag lets the next take through and unblocks `get`. */
  lemma UnsetReleases(st: ModeState, requireConsensus: bool)
    ensures TakeModeChanging(UnsetChanging(st), requireConsensus).granted
    ensures Get(UnsetChanging(st), requireConsensus) == Some(st.mode)
  {
  }

  /** The calls that change the mode state. */
  datatype ModeCall = TakeCall(requireConsensus: bool) | SetChangingCall | UnsetChangingCall | SetCall(m: IpcMode)

  function ApplyCall(st: ModeState, c: ModeCall): ModeState
  {
    match c
    case TakeCall(rc) => TakeModeChanging(st, rc).state
    case SetChangingCall => SetChanging(st)
    case UnsetChangingCall => UnsetChanging(st)
    case SetCall(m) => SetMode(st, m)
  }

  function ApplyCalls(st: ModeState, calls: seq<ModeCall>): ModeState
    decreases |calls|
  {
    if calls == [] then st else ApplyCalls(ApplyCall(st, calls[0]), calls[1..])
  }

  /** How many of the `takeModeChanging` calls among `calls` are granted, made in order from `st`. */
  function GrantsOver(st: ModeState, calls: seq<ModeCall>): nat
    decreases |calls|
  {
    if calls == [] then 0
    else
      (if calls[0].TakeCall? && TakeModeChanging(st, calls[0].requireConsensus).granted then 1 else 0)
      + GrantsOver(ApplyCall(st, calls[0]), calls[1..])
  }

  /**
   Mutual exclusion over any calls: while every take requires consensus and
   nobody calls `unsetChanging`, at most one take is granted, none if a change
   was already in progress, and a change in progress (or a granted take) leaves
   the flag raised at the end. `set` and `setChanging` may come anywhere.
   */
  lemma {:induction false} ConsensusTakesGrantAtMostOnce(st: ModeState, calls: seq<ModeCall>)
    requires forall i :: 0 <= i < |calls| ==>
      !calls[i].UnsetChangingCall? && (calls[i].TakeCall? ==> calls[i].requireConsensus)
    ensures GrantsOver(st, calls) <= (if st.changing then 0 else 1)
    ensures st.changing || GrantsOver(st, calls) == 1 ==> ApplyCalls(st, calls).changing
    decreases |calls|
  {
    if calls != [] {
      var st' := ApplyCall(st, calls[0]);
      assert forall i :: 0 <= i < |calls[1..]| ==> calls[1..][i] == calls[i + 1];
      assert st.changing ==> st'.changing;
      ConsensusTakesGrantAtMostOnce(st', calls[1..]);
    }
  }

  /** The mode of the last `set` among `calls`, or `initial` if there is none. */
  function LastSet(calls: seq<ModeCall>, initial: IpcMode): IpcMode
    decreases |calls|
  {
    if calls == [] then initial
    else if calls[|calls| - 1].SetCall? then calls[|calls| - 1].m
    else LastSet(calls[..|calls| - 1], initial)
  }

  lemma {:induction false} ApplyCallsSnoc(st: ModeState, calls: seq<ModeCall>, c: ModeCall)
    ensures ApplyCalls(st, calls + [c]) == ApplyCall(ApplyCalls(st, calls), c)
    decreases |calls|
  {
    if calls != [] {
      assert (calls + [c])[1..] == calls[1..] + [c];
      ApplyCallsSnoc(ApplyCall(st, calls[0]), calls[1..], c);
    }
  }

  /** Whatever calls are made, the mode is the one last passed to `set` (no other call touches it). */
  lemma {:induction false} ModeIsLastSet(st: ModeState, calls: seq<ModeCall>)
    ensures ApplyCalls(st, calls).mode == LastSet(calls, st.mode)
    decreases |calls|
  {
    if calls != [] {
      var init := calls[..|calls| - 1];
      assert calls == init + [calls[|calls| - 1]];
      ApplyCallsSnoc(st, init, calls[|calls| - 1]);
      ModeIsLastSet(st, init);
    }
  }

  /**
   `get` after any calls: it returns the mode last `set` (GIPC if none) unless
   a change is in progress and consensus is required, in which case it blocks.
   */
  lemma GetReturnsLastSet(calls: seq<ModeCall>, requireConsensus: bool)
    ensures var st := ApplyCalls(Initial(), calls);
      Get(st, requireConsensus) == (if st.changing && requireConsensus then None else Some(LastSet(calls, Gipc)))
  {
    ModeIsLastSet(Initial(), calls);
  }
}

=== FILE: reactor.dfy ===
/**
 The state both reactors keep outside their sockets: the selector's keys, the
 pending-change list producers append to, the pending-data table of write
 queues, and the bytes each channel has handed to the OS. Also the steps the
 two reactors share: change processing, cancel/close, and the `write` handler.
 */
module Reactor {
  import opened Common
  import opened WriteQueue

  /** `ChangeRequest.REGISTER` and `ChangeRequest.CHANGEOPS`. */
  datatype ChangeKind = Register | ChangeOps

  /** A deferred registration change. Every request the Java code builds carries one operation. */
  datatype ChangeRequest = ChangeRequest(socket: Sock, kind: ChangeKind, op: Op)

  /** A `SelectionKey`: its interest set and whether it is still valid (not cancelled). */
  datatype Key = Key(interest: set<Op>, valid: bool)

  /** The client processes REGISTER requests; the server's switch has no case for them. */
  datatype Role = ClientRole | ServerRole

  datatype State = State(
    keys: map<Sock, Key>,
    closed: set<Sock>,
    pendingChanges: seq<ChangeRequest>,
    pendingData: map<Sock, seq<Buffer>>,
    sent: map<Sock, seq<byte>>)

  /** A state with no channel, no request and no queue. */
  function Empty(): State
  {
    State(map[], {}, [], map[], map[])
  }

  /** The write queue of `s`, or the empty queue if the table has none. */
  function QueueOf(st: State, s: Sock): seq<Buffer>
  {
    if s in st.pendingData then st.pendingData[s] else []
  }

  /** The bytes the OS has accepted for `s` so far. */
  function SentOn(st: State, s: Sock): seq<byte>
  {
    if s in st.sent then st.sent[s] else []
  }

  /** Create an empty queue for `s` unless it already has one; existing queues are left alone. */
  function EnsureQueue(pd: map<Sock, seq<Buffer>>, s: Sock): (pd': map<Sock, seq<Buffer>>)
    ensures pd'.Keys == pd.Keys + {s}
    ensures forall t :: t in pd ==> pd'[t] == pd[t]
    ensures s !in pd ==> pd'[s] == []
  {
    if s in pd then pd else pd[s := []]
  }

  /** A producer appends `CHANGEOPS(OP_WRITE)` for `s`. */
  function RequestWrite(st: State, s: Sock): (st': State)
    ensures st'.pendingChanges == st.pendingChanges + [ChangeRequest(s, ChangeOps, OpWrite)]
    ensures st' == st.(pendingChanges := st'.pendingChanges)
  {
    st.(pendingChanges := st.pendingChanges + [ChangeRequest(s, ChangeOps, OpWrite)])
  }

  /** A producer appends one freshly wrapped buffer to the existing queue of `s`. */
  function AppendBuffer(st: State, s: Sock, data: seq<byte>): (st': State)
    requires s in st.pendingData
    ensures st'.pendingData.Keys == st.pendingData.Keys
    ensures st'.pendingData[s] == st.pendingData[s] + [Wrap(data)]
    ensures PendingBytes(st'.pendingData[s]) == PendingBytes(st.pendingData[s]) + data
    ensures forall t :: t != s && t in st.pendingData ==> st'.pendingData[t] == st.pendingData[t]
    ensures st' == st.(pendingData := st'.pendingData)
  {
    st.(pendingData := st.pendingData[s := Enqueue(st.pendingData[s], data)])
  }

  /** Whether the reactor in `role` acts on `ch` at all. */
  predicate Honoured(role: Role, ch: ChangeRequest)
  {
    role == ClientRole || ch.kind == ChangeOps
  }

  /**
   The operations the selector reports for `s`: only those its key is
   interested in; a channel with no key is never selected.
   */
  function ReadyOps(st: State, s: Sock, ready: set<Op>): (r: set<Op>)
    ensures r <= ready
    ensures s !in st.keys ==> r == {}
    ensures s in st.keys ==> forall op :: op in r <==> op in ready && op in st.keys[s].interest
  {
    if s in st.keys then ready * st.keys[s].interest else {}
  }

  /** The result of applying one change: the new keys, or the exception it raised. */
  datatype KeyUpdate = Updated(keys: map<Sock, Key>) | Raised(fault: Fault)

  /**
   One change request. `CHANGEOPS` calls `keyFor(selector).interestOps(op)`:
   null for a channel never registered, an exception for a cancelled key, and
   otherwise the interest set is replaced. `REGISTER` (client only) fails on a
   closed channel or a cancelled key and otherwise sets the interest set.
   */
  function ApplyChange(role: Role, keys: map<Sock, Key>, closed: set<Sock>, ch: ChangeRequest): (u: KeyUpdate)
    ensures u.Updated? && Honoured(role, ch) ==> u.keys == keys[ch.socket := Key({ch.op}, true)]
    ensures u.Updated? && !Honoured(role, ch) ==> u.keys == keys
    ensures u.Raised? <==>
      (Honoured(role, ch) &&
       if ch.kind == ChangeOps then ch.socket !in keys || !keys[ch.socket].valid
       else ch.socket in closed || (ch.socket in keys && !keys[ch.socket].valid))
  {
    match ch.kind
    case ChangeOps =>
      if ch.socket !in keys then Raised(NullPointer)
      else if !keys[ch.socket].valid then Raised(CancelledKey)
      else Updated(keys[ch.socket := Key({ch.op}, true)])
    case Register =>
      if role == ServerRole then Updated(keys)
      else if ch.socket in closed then Raised(ClosedChannel)
      else if ch.socket in keys && !keys[ch.socket].valid then Raised(CancelledKey)
      else Updated(keys[ch.socket := Key({ch.op}, true)])
  }

  /** The keys after the requests, in list order, and the exception that stopped them, if any. */
  datatype Applied = Applied(keys: map<Sock, Key>, thrown: Option<Fault>)

  function ApplyChanges(role: Role, keys: map<Sock, Key>, closed: set<Sock>, changes: seq<ChangeRequest>): Applied
    decreases |changes|
  {
    if changes == [] then Applied(keys, None)
    else
      match ApplyChange(role, keys, closed, changes[0])
      case Raised(f) => Applied(keys, Some(f))
      case Updated(keys') => ApplyChanges(role, keys', closed, changes[1..])
  }

  /**
   The top of each run-loop iteration. Every request is applied in order; if
   none throws, the list is cleared. If one throws, the exception leaves the
   synchronized block before `clear()`, so the list stays as it was while the
   requests before the failing one have taken effect.
   */
  function ProcessChanges(role: Role, st: State): (o: Outcome<State>)
    ensures o.thrown == None ==> o.state.pendingChanges == []
    ensures o.thrown != None ==> o.state.pendingChanges == st.pendingChanges
    ensures st.pendingChanges == [] ==> o == Outcome(st, None)
    ensures o.state == st.(keys := o.state.keys, pendingChanges := o.state.pendingChanges)
  {
    var a := ApplyChanges(role, st.keys, st.closed, st.pendingChanges);
    if a.thrown == None then Outcome(st.(keys := a.keys, pendingChanges := []), None)
    else Outcome(st.(keys := a.keys), a.thrown)
  }

  /** The operation of the last request in `changes` that the reactor honours for `s`. */
  function LastOp(role: Role, changes: seq<ChangeRequest>, s: Sock): Option<Op>
    decreases |changes|
  {
    if changes == [] then None
    else
      var later := LastOp(role, changes[1..], s);
      if later.Some? then later
      else if changes[0].socket == s && Honoured(role, changes[0]) then Some(changes[0].op)
      else None
  }

  /**
   Requests replace, not merge: when processing succeeds, each channel's key
   holds exactly the operation of the last request for it, and a channel no
   request named keeps its key (or its absence).
   */
  lemma {:induction false} AppliedKeyIsLastRequest(role: Role, keys: map<Sock, Key>, closed: set<Sock>,
                                                   changes: seq<ChangeRequest>, s: Sock)
    requires ApplyChanges(role, keys, closed, changes).thrown == None
    ensures var r := ApplyChanges(role, keys, closed, changes).keys;
      match LastOp(role, changes, s)
      case Some(op) => s in r && r[s] == Key({op}, true)
      case None => (s in r <==> s in keys) && (s in keys ==> r[s] == keys[s])
    decreases |changes|
  {
    if changes != [] {
      var u := ApplyChange(role, keys, closed, changes[0]);
      AppliedKeyIsLastRequest(role, u.keys, closed, changes[1..], s);
    }
  }

  /** The change-processing step clears the list and leaves each key with its last request. */
  lemma ProcessChangesLastWins(role: Role, st: State, s: Sock)
    requires ProcessChanges(role, st).thrown == None
    ensures var r := ProcessChanges(role, st).state;
      && r.pendingChanges == []
      && match LastOp(role, st.pendingChanges, s)
         case Some(op) => s in r.keys && r.keys[s] == Key({op}, true)
         case None => (s in r.keys <==> s in st.keys) && (s in st.keys ==> r.keys[s] == st.keys[s])
  {
    AppliedKeyIsLastRequest(role, st.keys, st.closed, st.pendingChanges, s);
  }

  /** Requests the reactor does not act on leave every key as it was and throw nothing. */
  lemma {:induction false} UnhonouredChangesKeepKeys(role: Role, keys: map<Sock, Key>, closed: set<Sock>,
                                                     changes: seq<ChangeRequest>)
    requires forall i :: 0 <= i < |changes| ==> !Honoured(role, changes[i])
    ensures ApplyChanges(role, keys, closed, changes) == Applied(keys, None)
    decreases |changes|
  {
    if changes != [] {
      assert !Honoured(role, changes[0]);
      assert forall i :: 0 <= i < |changes[1..]| ==> changes[1..][i] == changes[i + 1];
      UnhonouredChangesKeepKeys(role, keys, closed, changes[1..]);
    }
  }

  /** The requests of `changes` that the reactor honours, in order. */
  function HonouredOnly(role: Role, changes: seq<ChangeRequest>): (r: seq<ChangeRequest>)
    ensures forall ch :: ch in r <==> ch in changes && Honoured(role, ch)
    ensures |r| <= |changes|
    decreases |changes|
  {
    if changes == [] then []
    else (if Honoured(role, changes[0]) then [changes[0]] else []) + HonouredOnly(role, changes[1..])
  }

  /** Requests the reactor does not honour have no effect wherever they stand in the list. */
  lemma {:induction false} UnhonouredChangesIgnored(role: Role, keys: map<Sock, Key>, closed: set<Sock>,
                                                    changes: seq<ChangeRequest>)
    ensures ApplyChanges(role, keys, closed, changes) == ApplyChanges(role, keys, closed, HonouredOnly(role, changes))
    decreases |changes|
  {
    if changes != [] {
      var h := HonouredOnly(role, changes[1..]);
      if Honoured(role, changes[0]) {
        var hs := [changes[0]] + h;
        assert HonouredOnly(role, changes) == hs;
        assert hs[0] == changes[0] && hs[1..] == h;
        match ApplyChange(role, keys, closed, changes[0])
        case Raised(f) =>
        case Updated(keys') => UnhonouredChangesIgnored(role, keys', closed, changes[1..]);
      } else {
        assert HonouredOnly(role, changes) == [] + h == h;
        UnhonouredChangesIgnored(role, keys, closed, changes[1..]);
      }
    }
  }

  /** Change processing never cancels a key, whether or not it throws. */
  lemma {:induction false} ApplyChangesKeepsValid(role: Role, keys: map<Sock, Key>, closed: set<Sock>,
                                                  changes: seq<ChangeRequest>, t: Sock)
    requires t in keys && keys[t].valid
    ensures var r := ApplyChanges(role, keys, closed, changes).keys;
      t in r && r[t].valid
    decreases |changes|
  {
    if changes != [] {
      match ApplyChange(role, keys, closed, changes[0])
      case Raised(_) =>
      case Updated(keys') =>
        ApplyChangesKeepsValid(role, keys', closed, changes[1..], t);
    }
  }

  /**
   Nor does it bring a cancelled key back: a CHANGEOPS or an honoured REGISTER
   for it throws, and every other request leaves it alone.
   */
  lemma {:induction false} ApplyChangesKeepsCancelled(role: Role, keys: map<Sock, Key>, closed: set<Sock>,
                                                      changes: seq<ChangeRequest>, t: Sock)
    requires t in keys && !keys[t].valid
    ensures var r := ApplyChanges(role, keys, closed, changes).keys;
      t in r && !r[t].valid
    decreases |changes|
  {
    if changes != [] {
      match ApplyChange(role, keys, closed, changes[0])
      case Raised(_) =>
      case Updated(keys') =>
        ApplyChangesKeepsCancelled(role, keys', closed, changes[1..], t);
    }
  }

  /** A request appended to the list is the last one for its channel. */
  lemma {:induction false} LastOpAppend(role: Role, changes: seq<ChangeRequest>, r: ChangeRequest, s: Sock)
    ensures LastOp(role, changes + [r], s)
         == if r.socket == s && Honoured(role, r) then Some(r.op) else LastOp(role, changes, s)
    decreases |changes|
  {
    if changes == [] {
      assert [] + [r] == [r];
      assert [r][1..] == [];
    } else {
      assert (changes + [r])[0] == changes[0];
      assert (changes + [r])[1..] == changes[1..] + [r];
      LastOpAppend(role, changes[1..], r, s);
    }
  }

  /**
   When no REGISTER names `t` and every CHANGEOPS asks for WRITE, the last
   request for `t`, if there is one, asks for WRITE.
   */
  lemma {:induction false} LastOpOnlyWrite(role: Role, changes: seq<ChangeRequest>, t: Sock)
    requires forall i :: 0 <= i < |changes| ==>
      (changes[i].kind == Register ==> changes[i].socket != t) && (changes[i].kind == ChangeOps ==> changes[i].op == OpWrite)
    ensures LastOp(role, changes, t) == None || LastOp(role, changes, t) == Some(OpWrite)
    decreases |changes|
  {
    if changes != [] {
      assert forall i :: 0 <= i < |changes[1..]| ==> changes[1..][i] == changes[i + 1];
      LastOpOnlyWrite(role, changes[1..], t);
    }
  }

  /**
   Change processing adds a key only for a channel a REGISTER names: if every
   key and every REGISTER is below `n`, so is every key afterwards.
   */
  lemma {:induction false} ApplyChangesKeysBounded(role: Role, keys: map<Sock, Key>, closed: set<Sock>,
                                                   changes: seq<ChangeRequest>, n: nat)
    requires forall t :: t in keys ==> t < n
    requires forall i :: 0 <= i < |changes| && changes[i].kind == Register ==> changes[i].socket < n
    ensures forall t :: t in ApplyChanges(role, keys, closed, changes).keys ==> t < n
    decreases |changes|
  {
    if changes != [] {
      match ApplyChange(role, keys, closed, changes[0])
      case Raised(_) =>
      case Updated(keys') =>
        assert forall i :: 0 <= i < |changes[1..]| ==> changes[1..][i] == changes[i + 1];
        ApplyChangesKeysBounded(role, keys', closed, changes[1..], n);
    }
  }

  /**
   The server honours only CHANGEOPS, which updates a registered key or
   throws: its change processing never adds or removes a channel.
   */
  lemma {:induction false} ServerChangesKeepChannels(keys: map<Sock, Key>, closed: set<Sock>,
                                                     changes: seq<ChangeRequest>)
    ensures ApplyChanges(ServerRole, keys, closed, changes).keys.Keys == keys.Keys
    decreases |changes|
  {
    if changes != [] {
      match ApplyChange(ServerRole, keys, closed, changes[0])
      case Raised(_) =>
      case Updated(keys') =>
        ServerChangesKeepChannels(keys', closed, changes[1..]);
    }
  }

  /**
   When every CHANGEOPS asks for WRITE, the server's change processing, even
   one that throws part-way, leaves each registered key as it was or
   interested in WRITE alone.
   */
  lemma {:induction false} ServerWriteRequestsOnlyWrite(keys: map<Sock, Key>, closed: set<Sock>,
                                                        changes: seq<ChangeRequest>, t: Sock)
    requires t in keys
    requires forall i :: 0 <= i < |changes| && changes[i].kind == ChangeOps ==> changes[i].op == OpWrite
    ensures var r := ApplyChanges(ServerRole, keys, closed, changes).keys;
      t in r && (r[t] == keys[t] || r[t] == Key({OpWrite}, true))
    decreases |changes|
  {
    if changes != [] {
      match ApplyChange(ServerRole, keys, closed, changes[0])
      case Raised(_) =>
      case Updated(keys') =>
        assert changes[0].kind == ChangeOps ==> changes[0].op == OpWrite;
        assert forall i :: 0 <= i < |changes[1..]| ==> changes[1..][i] == changes[i + 1];
        ServerWriteRequestsOnlyWrite(keys', closed, changes[1..], t);
    }
  }

  /** The position of the request that stopped `ApplyChanges`. */
  function FailIndex(role: Role, keys: map<Sock, Key>, closed: set<Sock>, changes: seq<ChangeRequest>): (i: nat)
    requires ApplyChanges(role, keys, closed, changes).thrown.Some?
    ensures i < |changes|
    decreases |changes|
  {
    match ApplyChange(role, keys, closed, changes[0])
    case Raised(_) => 0
    case Updated(keys') => 1 + FailIndex(role, keys', closed, changes[1..])
  }

  /**
   A failed run of the requests is a successful run of those before the
   failing one, whose keys it leaves, followed by the failing one.
   */
  lemma {:induction false} FailureSplits(role: Role, keys: map<Sock, Key>, closed: set<Sock>, changes: seq<ChangeRequest>)
    requires ApplyChanges(role, keys, closed, changes).thrown.Some?
    ensures var i := FailIndex(role, keys, closed, changes);
      var all := ApplyChanges(role, keys, closed, changes);
      var before := ApplyChanges(role, keys, closed, changes[..i]);
      && before == Applied(all.keys, None)
      && ApplyChange(role, all.keys, closed, changes[i]) == Raised(all.thrown.value)
    decreases |changes|
  {
    match ApplyChange(role, keys, closed, changes[0])
    case Raised(_) =>
      assert changes[..0] == [];
    case Updated(keys') =>
      FailureSplits(role, keys', closed, changes[1..]);
      var i := FailIndex(role, keys', closed, changes[1..]);
      assert changes[..i + 1][0] == changes[0];
      assert changes[..i + 1][1..] == changes[1..][..i];
      assert changes[i + 1] == changes[1..][i];
  }

  lemma {:induction false} ApplyChangesAppend(role: Role, keys: map<Sock, Key>, closed: set<Sock>,
                                              front: seq<ChangeRequest>, back: seq<ChangeRequest>)
    ensures ApplyChanges(role, keys, closed, front + back)
         == (var a := ApplyChanges(role, keys, closed, front);
             if a.thrown.Some? then a else ApplyChanges(role, a.keys, closed, back))
    decreases |front|
  {
    if front == [] {
      assert front + back == back;
    } else {
      assert (front + back)[0] == front[0];
      assert (front + back)[1..] == front[1..] + back;
      match ApplyChange(role, keys, closed, front[0])
      case Raised(_) =>
      case Updated(keys') =>
        ApplyChangesAppend(role, keys', closed, front[1..], back);
    }
  }

  /** A channel named by a request the reactor honours has a last requested operation. */
  lemma {:induction false} NamedHasLastOp(role: Role, changes: seq<ChangeRequest>, j: nat)
    requires j < |changes| && Honoured(role, changes[j])
    ensures LastOp(role, changes, changes[j].socket).Some?
    decreases |changes|
  {
    if j > 0 {
      assert changes[1..][j - 1] == changes[j];
      NamedHasLastOp(role, changes[1..], j - 1);
    }
  }

  /**
   Requests that succeeded once succeed again from any keys in which every
   channel they name has a valid key.
   */
  lemma {:induction false} ReapplySucceeds(role: Role, keys: map<Sock, Key>, closed: set<Sock>,
                                           changes: seq<ChangeRequest>, other: map<Sock, Key>)
    requires ApplyChanges(role, keys, closed, changes).thrown == None
    requires forall j :: 0 <= j < |changes| && Honoured(role, changes[j]) ==>
      changes[j].socket in other && other[changes[j].socket].valid
    ensures ApplyChanges(role, other, closed, changes).thrown == None
    decreases |changes|
  {
    if changes != [] {
      var u := ApplyChange(role, keys, closed, changes[0]);
      var v := ApplyChange(role, other, closed, changes[0]);
      assert v.Updated?;
      forall j | 0 <= j < |changes[1..]| && Honoured(role, changes[1..][j])
        ensures changes[1..][j].socket in v.keys && v.keys[changes[1..][j].socket].valid
      {
        assert changes[1..][j] == changes[j + 1];
      }
      ReapplySucceeds(role, u.keys, closed, changes[1..], v.keys);
    }
  }

  /** Applying a successful batch of requests to the keys it produced changes nothing. */
  lemma ReapplyIsIdempotent(role: Role, keys: map<Sock, Key>, closed: set<Sock>, changes: seq<ChangeRequest>)
    requires ApplyChanges(role, keys, closed, changes).thrown == None
    ensures var r := ApplyChanges(role, keys, closed, changes).keys;
      ApplyChanges(role, r, closed, changes) == Applied(r, None)
  {
    var r := ApplyChanges(role, keys, closed, changes).keys;
    forall j | 0 <= j < |changes| && Honoured(role, changes[j])
      ensures changes[j].socket in r && r[changes[j].socket].valid
    {
      NamedHasLastOp(role, changes, j);
      AppliedKeyIsLastRequest(role, keys, closed, changes, changes[j].socket);
    }
    ReapplySucceeds(role, keys, closed, changes, r);
    var r2 := ApplyChanges(role, r, closed, changes).keys;
    forall s
      ensures (s in r2 <==> s in r) && (s in r ==> r2[s] == r[s])
    {
      AppliedKeyIsLastRequest(role, keys, closed, changes, s);
      AppliedKeyIsLastRequest(role, r, closed, changes, s);
    }
    assert r2 == r;
  }

  /**
   A failed change-processing step wedges the reactor: the list is not
   cleared, so the next iteration replays the same requests against the keys
   they already produced and fails again with the same exception, and a
   request queued behind them never takes effect.
   */
  lemma FailedChangesRecur(role: Role, st: State, more: seq<ChangeRequest>)
    requires ProcessChanges(role, st).thrown != None
    ensures var o := ProcessChanges(role, st);
      var again := ProcessChanges(role, o.state.(pendingChanges := o.state.pendingChanges + more));
      again.thrown == o.thrown && again.state.keys == o.state.keys
  {
    var p := st.pendingChanges;
    var a := ApplyChanges(role, st.keys, st.closed, p);
    FailureSplits(role, st.keys, st.closed, p);
    var i := FailIndex(role, st.keys, st.closed, p);
    ReapplyIsIdempotent(role, st.keys, st.closed, p[..i]);
    var rest := [p[i]] + (p[i + 1..] + more);
    assert p + more == p[..i] + rest;
    assert rest[0] == p[i];
    ApplyChangesAppend(role, a.keys, st.closed, p[..i], rest);
  }

  /** `key.cancel()`: the key stays known but is no longer valid. */
  function Cancel(st: State, s: Sock): (st': State)
    ensures st'.keys.Keys == st.keys.Keys
    ensures s in st.keys ==> st'.keys[s] == st.keys[s].(valid := false)
    ensures forall t :: t != s && t in st.keys ==> st'.keys[t] == st.keys[t]
    ensures st' == st.(keys := st'.keys)
  {
    if s in st.keys then st.(keys := st.keys[s := st.keys[s].(valid := false)]) else st
  }

  /** `channel.close()` together with `key.cancel()`; the tables keyed by the channel are not cleaned. */
  function Close(st: State, s: Sock): (st': State)
    ensures st'.closed == st.closed + {s}
    ensures st'.keys.Keys == st.keys.Keys
    ensures s in st.keys ==> !st'.keys[s].valid
    ensures forall t :: t != s && t in st.keys ==> st'.keys[t] == st.keys[t]
    ensures st'.pendingData == st.pendingData && st'.sent == st.sent
    ensures st'.pendingChanges == st.pendingChanges
  {
    Cancel(st, s).(closed := st.closed + {s})
  }

  /**
   `key.interestOps(op)` from a handler: the interest set is replaced and the
   key's validity is left as it is (the handlers only reach valid keys).
   */
  function SetInterest(st: State, s: Sock, op: Op): (st': State)
    requires s in st.keys
    ensures st'.keys == st.keys[s := Key({op}, st.keys[s].valid)]
    ensures st' == st.(keys := st'.keys)
  {
    st.(keys := st.keys[s := st.keys[s].(interest := {op})])
  }

  /** The drained queue of `s` replaces the old one and the accepted bytes join its wire. */
  function Transfer(st: State, s: Sock, d: Drained): (st': State)
    requires s in st.pendingData
    requires d.emitted + PendingBytes(d.queue) == PendingBytes(st.pendingData[s])
    ensures QueueOf(st', s) == d.queue && SentOn(st', s) == SentOn(st, s) + d.emitted
    ensures SentOn(st', s) + PendingBytes(QueueOf(st', s)) == SentOn(st, s) + PendingBytes(QueueOf(st, s))
    ensures st'.pendingData == st.pendingData[s := d.queue]
    ensures st'.sent == st.sent[s := SentOn(st', s)]
    ensures st' == st.(pendingData := st'.pendingData, sent := st'.sent)
  {
    st.(pendingData := st.pendingData[s := d.queue], sent := st.sent[s := SentOn(st, s) + d.emitted])
  }

  /**
   The end of `write`, once the drain `d` has been transferred: a throw
   escapes with the interest set untouched, an emptied queue switches the
   interest to READ, and a partial write leaves the key alone.
   */
  function Settle(st: State, s: Sock, d: Drained): (o: Outcome<State>)
    requires s in st.keys
    ensures o.state == st.(keys := o.state.keys)
    ensures o.thrown == (if d.failed then Some(IoFailure) else None)
    ensures d.failed || d.queue != [] ==> o.state.keys == st.keys
    ensures !d.failed && d.queue == [] ==> o.state.keys == st.keys[s := Key({OpRead}, st.keys[s].valid)]
  {
    if d.failed then Outcome(st, Some(IoFailure))
    else if d.queue == [] then Outcome(SetInterest(st, s, OpRead), None)
    else Outcome(st, None)
  }

  /**
   The `write` handler of both reactors. A missing queue is a null dereference.
   After a drain that threw, the interest set is untouched; otherwise it
   becomes exactly READ when the queue is empty and is left as it was when a
   partial write stopped the loop.
   */
  function Write(st: State, s: Sock, rs: seq<WriteReply>): (o: Outcome<State>)
    requires s in st.keys
    ensures s !in st.pendingData ==> o == Outcome(st, Some(NullPointer))
    // only the served connection's queue, wire and key change
    ensures s in st.pendingData ==>
      && o.state.pendingData == st.pendingData[s := QueueOf(o.state, s)]
      && o.state.sent == st.sent[s := SentOn(o.state, s)]
    ensures o.state == st.(keys := o.state.keys, pendingData := o.state.pendingData, sent := o.state.sent)
    ensures o.state.keys == st.keys || o.state.keys == st.keys[s := Key({OpRead}, st.keys[s].valid)]
    // bytes move from the queue to the wire, in order
    ensures SentOn(o.state, s) + PendingBytes(QueueOf(o.state, s)) == SentOn(st, s) + PendingBytes(QueueOf(st, s))
    ensures ResumesSuffix(QueueOf(o.state, s), QueueOf(st, s))
    ensures o.thrown == None ==>
      && (QueueOf(o.state, s) == [] ==> o.state.keys[s].interest == {OpRead})
      && (QueueOf(o.state, s) != [] ==> o.state.keys[s] == st.keys[s] && QueueOf(o.state, s)[0].remaining != [])
    ensures o.thrown != None ==> o.state.keys == st.keys
    // what the OS answers decides the outcome
    ensures s in st.pendingData ==> QueueOf(o.state, s) == Drain(st.pendingData[s], rs).queue
    ensures o.thrown == Some(IoFailure) ==> Fails in rs
    ensures s in st.pendingData && Fails !in rs ==> o.thrown == None
    ensures s in st.pendingData && st.pendingData[s] != [] && NextReply(rs).Fails? ==>
      o.thrown == Some(IoFailure) && QueueOf(o.state, s) == QueueOf(st, s) && SentOn(o.state, s) == SentOn(st, s)
    ensures s in st.pendingData && st.pendingData[s] != [] && NextReply(rs).Accepts? && NextReply(rs).offered >= 1 ==>
      Backlog(QueueOf(o.state, s)) < Backlog(QueueOf(st, s))
  {
    if s !in st.pendingData then Outcome(st, Some(NullPointer))
    else
      var d := Drain(st.pendingData[s], rs);
      DrainFirstWrite(st.pendingData[s], rs);
      DrainProgresses(st.pendingData[s], rs);
      Settle(Transfer(st, s, d), s, d)
  }

  /**
   Successive `write` handler runs on `s`, the `i`-th seeing the OS replies
   `rss[i]`. While no write throws, they leave the queue the same drains
   leave, and once they have emptied it the key is interested in READ only.
   */
  function WriteEach(st: State, s: Sock, rss: seq<seq<WriteReply>>): (st': State)
    requires s in st.keys
    ensures s in st'.keys
    ensures s in st.pendingData ==> s in st'.pendingData
    ensures s in st.pendingData && NoWriteFails(rss) ==> QueueOf(st', s) == DrainEach(QueueOf(st, s), rss)
    ensures s in st.pendingData && NoWriteFails(rss) && |rss| >= 1 && QueueOf(st', s) == [] ==>
      st'.keys[s].interest == {OpRead}
    decreases |rss|
  {
    if rss == [] then st
    else
      assert NoWriteFails(rss) ==> NoWriteFails(rss[1..]) by {
        assert forall i :: 0 <= i < |rss[1..]| ==> rss[1..][i] == rss[i + 1];
      }
      WriteEach(Write(st, s, rss[0]).state, s, rss[1..])
  }

  /**
   Progress of the write path: while no write throws and every first write
   accepts at least one byte, however the OS splits the bytes, as many
   writable events as the queue's backlog (and at least one) empty the queue
   and leave the key interested in READ only.
   */
  lemma RepeatedWritesEmptyQueue(st: State, s: Sock, rss: seq<seq<WriteReply>>)
    requires s in st.keys && s in st.pendingData
    requires EveryFirstWriteAccepts(rss) && NoWriteFails(rss)
    requires |rss| >= 1 && |rss| >= Backlog(QueueOf(st, s))
    ensures QueueOf(WriteEach(st, s, rss), s) == []
    ensures WriteEach(st, s, rss).keys[s].interest == {OpRead}
  {
    DrainEachEmpties(QueueOf(st, s), rss);
  }

  /** One write that throws nothing: the backlog shrinks, and an emptied queue means READ interest. */
  lemma WriteMakesProgress(st: State, s: Sock, rs: seq<WriteReply>)
    requires s in st.keys && s in st.pendingData
    requires NextReply(rs).Accepts? && NextReply(rs).offered >= 1 && Fails !in rs
    ensures var st1 := Write(st, s, rs).state;
      && s in st1.keys && s in st1.pendingData
      && (Backlog(QueueOf(st1, s)) < Backlog(QueueOf(st, s)) || QueueOf(st, s) == [])
      && (QueueOf(st, s) == [] ==> QueueOf(st1, s) == [])
      && (QueueOf(st1, s) == [] ==> st1.keys[s].interest == {OpRead})
  {
    var o := Write(st, s, rs);
    assert o.thrown == None;
    assert ResumesSuffix(QueueOf(o.state, s), QueueOf(st, s));
  }

  /** A write to one connection only consumes from that connection's queue. */
  lemma WriteLeavesOtherQueues(st: State, s: Sock, rs: seq<WriteReply>, t: Sock)
    requires s in st.keys && t != s
    ensures QueueOf(Write(st, s, rs).state, t) == QueueOf(st, t)
    ensures SentOn(Write(st, s, rs).state, t) == SentOn(st, t)
  {
    var o := Write(st, s, rs);
    if s in st.pendingData {
      assert o.state.pendingData == st.pendingData[s := QueueOf(o.state, s)];
      assert o.state.sent == st.sent[s := SentOn(o.state, s)];
    }
  }
}

=== FILE: server.dfy ===
/**
 The NIO broadcast server reactor: a listening channel registered for ACCEPT,
 accepted connections registered for READ, reads handed to a worker, and
 `send`/`broadcast` that queue raw bytes (no separator) for the selector
 thread to write.
 */
module BroadcastServer {
  import opened Common
  import opened WriteQueue
  import opened Reactor

  /** `DistroHalloweenSimulation.SimuMode`; its `MODE` starts as `BASIC`. */
  datatype SimuMode = Local | Basic | Atomic

  /** The server's state: the shared reactor state and the listening channel. */
  datatype Server = Server(core: State, listener: Sock, nextSock: Sock)

  /**
   Every registered channel, the listener among them, is numbered below
   `nextSock`, so the channel `accept` opens is new to the selector.
   */
  predicate WellFormed(sv: Server)
  {
    sv.listener < sv.nextSock && forall t :: t in sv.core.keys ==> t < sv.nextSock
  }

  /**
   The constructor with `initSelector`: the listening channel is the only
   registered channel, with interest in ACCEPT.
   */
  function Init(): (sv: Server)
    ensures sv.core.keys == map[sv.listener := Key({OpAccept}, true)]
    ensures sv.core.pendingChanges == [] && sv.core.pendingData == map[] && sv.core.closed == {}
    ensures sv.listener < sv.nextSock && WellFormed(sv)
  {
    Server(Empty().(keys := map[0 := Key({OpAccept}, true)]), 0, 1)
  }

  /**
   `send`: append `CHANGEOPS(OP_WRITE)` for the channel, create its queue if
   it has none, and queue the bytes as they are.
   */
  function Send(sv: Server, s: Sock, data: seq<byte>): (sv': Server)
    ensures sv'.core.pendingChanges == sv.core.pendingChanges + [ChangeRequest(s, ChangeOps, OpWrite)]
    ensures sv'.core.pendingData == sv.core.pendingData[s := QueueOf(sv.core, s) + [Wrap(data)]]
    ensures sv' == sv.(core := sv.core.(pendingChanges := sv'.core.pendingChanges, pendingData := sv'.core.pendingData))
  {
    var requested := RequestWrite(sv.core, s);
    var queued := requested.(pendingData := EnsureQueue(requested.pendingData, s));
    sv.(core := AppendBuffer(queued, s, data))
  }

  /**
   Whether `broadcast` writes to `t`: a valid key whose channel is a
   `SocketChannel` (not the listener), other than the source unless the mode
   is ATOMIC.
   */
  predicate IsRecipient(sv: Server, t: Sock, src: Sock, mode: SimuMode)
  {
    && t in sv.core.keys
    && sv.core.keys[t].valid
    && t != sv.listener
    && (mode == Atomic || t != src)
  }

  /** The recipients of a broadcast, as a set. */
  function Recipients(sv: Server, src: Sock, mode: SimuMode): set<Sock>
  {
    set t | t in sv.core.keys && IsRecipient(sv, t, src, mode)
  }

  /** No channel is listed twice. */
  predicate Distinct(s: seq<Sock>)
  {
    forall i, j :: 0 <= i < j < |s| ==> s[i] != s[j]
  }

  lemma DistinctTail(s: seq<Sock>)
    requires s != [] && Distinct(s)
    ensures Distinct(s[1..]) && s[0] !in s[1..]
  {
  }

  /** The snapshot lists each registered key once. */
  predicate IsSnapshot(sv: Server, snapshot: seq<Sock>)
  {
    && (forall t :: t in snapshot ==> t in sv.core.keys)
    && (forall t :: t in sv.core.keys ==> t in snapshot)
    && Distinct(snapshot)
  }

  /**
   The recipients in the order the snapshot lists them. Sending changes no
   key, so testing every key against the state before the loop is the same
   as testing it when the loop reaches it.
   */
  function Targets(sv: Server, src: Sock, mode: SimuMode, snapshot: seq<Sock>): (ts: seq<Sock>)
    requires Distinct(snapshot)
    ensures forall t :: t in ts <==> t in snapshot && IsRecipient(sv, t, src, mode)
    ensures Distinct(ts)
    decreases |snapshot|
  {
    if snapshot == [] then []
    else
      DistinctTail(snapshot);
      var rest := Targets(sv, src, mode, snapshot[1..]);
      if IsRecipient(sv, snapshot[0], src, mode) then
        assert forall i :: 0 < i < |[snapshot[0]] + rest| ==> ([snapshot[0]] + rest)[i] == rest[i - 1];
        [snapshot[0]] + rest
      else rest
  }

  /** The `CHANGEOPS(OP_WRITE)` requests `send` appends for each target, in order. */
  function WriteRequests(targets: seq<Sock>): (rq: seq<ChangeRequest>)
    ensures |rq| == |targets|
    decreases |targets|
  {
    if targets == [] then [] else [ChangeRequest(targets[0], ChangeOps, OpWrite)] + WriteRequests(targets[1..])
  }

  lemma {:induction false} WriteRequestAt(targets: seq<Sock>, i: nat)
    requires i < |targets|
    ensures WriteRequests(targets)[i] == ChangeRequest(targets[i], ChangeOps, OpWrite)
    decreases |targets|
  {
    if i > 0 {
      WriteRequestAt(targets[1..], i - 1);
    }
  }

  /** `send` to each target in turn. */
  function SendAll(sv: Server, targets: seq<Sock>, data: seq<byte>): (sv': Server)
    ensures sv'.core.pendingChanges == sv.core.pendingChanges + WriteRequests(targets)
    ensures sv'.listener == sv.listener && sv'.nextSock == sv.nextSock
    ensures sv'.core == sv.core.(pendingChanges := sv'.core.pendingChanges, pendingData := sv'.core.pendingData)
    decreases |targets|
  {
    if targets == [] then sv
    else
      var rest := SendAll(Send(sv, targets[0], data), targets[1..], data);
      AppendAssoc(sv.core.pendingChanges, [ChangeRequest(targets[0], ChangeOps, OpWrite)], WriteRequests(targets[1..]));
      rest
  }

  /** Sending to distinct targets gives each of them one buffer of its own and touches no other queue. */
  lemma {:induction false} SendAllQueues(sv: Server, targets: seq<Sock>, data: seq<byte>, t: Sock)
    requires Distinct(targets)
    ensures var sv' := SendAll(sv, targets, data);
      && (t in sv'.core.pendingData <==> t in sv.core.pendingData || t in targets)
      && QueueOf(sv'.core, t) == QueueOf(sv.core, t) + (if t in targets then [Wrap(data)] else [])
    decreases |targets|
  {
    if targets != [] {
      DistinctTail(targets);
      SendAllQueues(Send(sv, targets[0], data), targets[1..], data, t);
    }
  }

  /**
   `broadcast(src, data)`, with the simulation mode and the order in which the
   selector's key set is iterated as inputs: every recipient gets what `send`
   gives it, and no other channel is touched.
   */
  function Broadcast(sv: Server, src: Sock, data: seq<byte>, mode: SimuMode, snapshot: seq<Sock>): (sv': Server)
    requires IsSnapshot(sv, snapshot)
    ensures sv'.core.keys == sv.core.keys && sv'.listener == sv.listener && sv'.nextSock == sv.nextSock
    ensures sv'.core == sv.core.(pendingChanges := sv'.core.pendingChanges, pendingData := sv'.core.pendingData)
    ensures forall t :: t in Recipients(sv, src, mode) ==>
      && t in sv'.core.pendingData
      && sv'.core.pendingData[t] == QueueOf(sv.core, t) + [Wrap(data)]
      && PendingBytes(sv'.core.pendingData[t]) == PendingBytes(QueueOf(sv.core, t)) + data
    ensures forall t :: t !in Recipients(sv, src, mode) ==>
      (t in sv'.core.pendingData <==> t in sv.core.pendingData) && QueueOf(sv'.core, t) == QueueOf(sv.core, t)
    ensures sv'.core.pendingChanges == sv.core.pendingChanges + WriteRequests(Targets(sv, src, mode, snapshot))
  {
    var ts := Targets(sv, src, mode, snapshot);
    var sv' := SendAll(sv, ts, data);
    forall t
      ensures t in ts ==> t in sv'.core.pendingData && sv'.core.pendingData[t] == QueueOf(sv.core, t) + [Wrap(data)]
      ensures t !in ts ==>
        (t in sv'.core.pendingData <==> t in sv.core.pendingData) && QueueOf(sv'.core, t) == QueueOf(sv.core, t)
    {
      SendAllQueues(sv, ts, data, t);
    }
    forall t | t in Recipients(sv, src, mode)
      ensures PendingBytes(sv'.core.pendingData[t]) == PendingBytes(QueueOf(sv.core, t)) + data
    {
      PendingBytesAppend(QueueOf(sv.core, t), Wrap(data));
    }
    sv'
  }

  /**
   The requests a broadcast appends name exactly the recipients, each once,
   and each asks for WRITE interest; the earlier requests stay in front.
   */
  lemma BroadcastRequestsWriteForRecipients(sv: Server, src: Sock, data: seq<byte>, mode: SimuMode, snapshot: seq<Sock>)
    requires IsSnapshot(sv, snapshot)
    ensures var sv' := Broadcast(sv, src, data, mode, snapshot);
      var n := |sv.core.pendingChanges|;
      var rq := sv'.core.pendingChanges[n..];
      && sv'.core.pendingChanges[..n] == sv.core.pendingChanges
      && (forall i :: 0 <= i < |rq| ==> rq[i].kind == ChangeOps && rq[i].op == OpWrite)
      && (forall t :: (exists i :: 0 <= i < |rq| && rq[i].socket == t) <==> t in Recipients(sv, src, mode))
      && (forall i, j :: 0 <= i < j < |rq| ==> rq[i].socket != rq[j].socket)
  {
    var pc := Broadcast(sv, src, data, mode, snapshot).core.pendingChanges;
    var n := |sv.core.pendingChanges|;
    var ts := Targets(sv, src, mode, snapshot);
    assert pc == sv.core.pendingChanges + WriteRequests(ts);
    assert pc[..n] == sv.core.pendingChanges && pc[n..] == WriteRequests(ts);
    TargetsAreRecipients(sv, src, mode, snapshot);
    WriteRequestsNameTargets(ts);
  }

  /** The targets list exactly the recipients. */
  lemma TargetsAreRecipients(sv: Server, src: Sock, mode: SimuMode, snapshot: seq<Sock>)
    requires IsSnapshot(sv, snapshot)
    ensures forall t :: t in Targets(sv, src, mode, snapshot) <==> t in Recipients(sv, src, mode)
  {
  }

  /** The write requests for distinct targets name each of them once, in order, asking for WRITE. */
  lemma WriteRequestsNameTargets(ts: seq<Sock>)
    requires Distinct(ts)
    ensures var rq := WriteRequests(ts);
      && (forall i :: 0 <= i < |rq| ==> rq[i].kind == ChangeOps && rq[i].op == OpWrite)
      && (forall t :: (exists i :: 0 <= i < |rq| && rq[i].socket == t) <==> t in ts)
      && (forall i, j :: 0 <= i < j < |rq| ==> rq[i].socket != rq[j].socket)
  {
    var rq := WriteRequests(ts);
    forall i | 0 <= i < |rq|
      ensures rq[i] == ChangeRequest(ts[i], ChangeOps, OpWrite)
    {
      WriteRequestAt(ts, i);
    }
    forall t | t in ts
      ensures exists i :: 0 <= i < |rq| && rq[i].socket == t
    {
      var i :| 0 <= i < |ts| && ts[i] == t;
      assert rq[i].socket == t;
    }
  }

  /**
   The listener is never a recipient, and the source is one exactly when the
   mode is ATOMIC (and its key is valid).
   */
  lemma RecipientsExcludeListenerAndSource(sv: Server, src: Sock, mode: SimuMode)
    ensures sv.listener !in Recipients(sv, src, mode)
    ensures src in Recipients(sv, src, mode) <==>
      mode == Atomic && src in sv.core.keys && sv.core.keys[src].valid && src != sv.listener
    ensures forall t :: t != src ==> (t in Recipients(sv, src, mode) <==> t in Recipients(sv, src, Atomic))
  {
  }

  /**
   Each recipient's buffer position is its own: writing to one recipient,
   however partially, leaves every other recipient's queue ending with the
   whole, unstarted broadcast buffer. The bytes are values here; that Java's
   buffers all wrap the caller's one array is not modelled.
   */
  lemma BroadcastCopiesAreIndependent(sv: Server, src: Sock, data: seq<byte>, mode: SimuMode,
                                      snapshot: seq<Sock>, s: Sock, rs: seq<WriteReply>, t: Sock)
    requires IsSnapshot(sv, snapshot)
    requires s in sv.core.keys && t != s && t in Recipients(sv, src, mode)
    ensures var sv' := Broadcast(sv, src, data, mode, snapshot);
      QueueOf(Reactor.Write(sv'.core, s, rs).state, t) == QueueOf(sv.core, t) + [Wrap(data)]
  {
    var sv' := Broadcast(sv, src, data, mode, snapshot);
    WriteLeavesOtherQueues(sv'.core, s, rs, t);
  }

  /**
   `accept`: the listener's `accept()` returns null when no connection is
   pending, and the next dereference throws. Otherwise the new channel is
   registered for READ only; it gets no write queue yet.
   */
  function Accept(sv: Server, pending: bool): (o: Outcome<Server>)
    ensures !pending ==> o == Outcome(sv, Some(NullPointer))
    ensures pending ==>
      var s := sv.nextSock;
      && o.thrown == None
      && o.state.core.keys == sv.core.keys[s := Key({OpRead}, true)]
      && o.state.nextSock == s + 1
      && o.state.core.pendingData == sv.core.pendingData
      && o.state.core.pendingChanges == sv.core.pendingChanges
    ensures o.state.listener == sv.listener
    ensures o.state.core == sv.core.(keys := o.state.core.keys)
  {
    if !pending then Outcome(sv, Some(NullPointer))
    else
      var s := sv.nextSock;
      Outcome(Server(sv.core.(keys := sv.core.keys[s := Key({OpRead}, true)]), sv.listener, s + 1), None)
  }

  /** The server after a read, and whether the bytes went to the worker. */
  datatype ReadResult = ReadResult(server: Server, handedOff: bool)

  /**
   `read`: an exception or end of stream cancels the key and closes the
   channel without calling the worker; otherwise the worker gets the data and
   the server's state is unchanged.
   */
  function Read(sv: Server, s: Sock, reply: ReadReply): (r: ReadResult)
    ensures r.handedOff <==> reply.Arrived?
    ensures !reply.Arrived? ==>
      && r.server.core == Close(sv.core, s)
      && s in r.server.core.closed
      && (s in sv.core.keys ==> !r.server.core.keys[s].valid)
    ensures reply.Arrived? ==> r.server == sv
    ensures r.server == sv.(core := r.server.core)
  {
    if reply.Arrived? then ReadResult(sv, true) else ReadResult(sv.(core := Close(sv.core, s)), false)
  }

  /**
   Right after a teardown read, the channel is no recipient of the next
   broadcast. `TornDownIsNoRecipientLater` covers any later events.
   */
  lemma ClosedByReadIsNoRecipient(sv: Server, s: Sock, reply: ReadReply, src: Sock, mode: SimuMode)
    requires !reply.Arrived?
    ensures s !in Recipients(Read(sv, s, reply).server, src, mode)
  {
  }

  /** The handler the run loop picks for a ready key: accept, then read, then write. */
  function ServerHandler(ready: set<Op>): (r: Option<Op>)
    ensures r.Some? ==> r.value in ready && r.value != OpConnect
    ensures r == None <==> (OpAccept !in ready && OpRead !in ready && OpWrite !in ready)
    ensures r == Some(OpRead) ==> OpAccept !in ready
    ensures r == Some(OpWrite) ==> OpAccept !in ready && OpRead !in ready
  {
    if OpAccept in ready then Some(OpAccept)
    else if OpRead in ready then Some(OpRead)
    else if OpWrite in ready then Some(OpWrite)
    else None
  }

  /** What the OS does for one ready key. */
  datatype OsReply = OsReply(acceptPending: bool, read: ReadReply, writes: seq<WriteReply>)

  /** The server after one selected key, whether the worker got data, and any exception. */
  datatype Served = Served(server: Server, handedOff: bool, thrown: Option<Fault>)

  /**
   One selected key: an invalid key is skipped; otherwise exactly one handler
   runs, chosen by priority among the ready operations. `accept` casts the
   key's channel to the listening class and `read`/`write` to the connection
   class, so a handler run on the other kind of channel throws at once.
   */
  function Dispatch(sv: Server, s: Sock, ready: set<Op>, os: OsReply): (r: Served)
    ensures !(s in sv.core.keys && sv.core.keys[s].valid) || ServerHandler(ready) == None ==>
      r == Served(sv, false, None)
    ensures s in sv.core.keys && sv.core.keys[s].valid && ServerHandler(ready).Some? &&
            (ServerHandler(ready) == Some(OpAccept) <==> s != sv.listener) ==>
      r == Served(sv, false, Some(WrongChannel))
    ensures r.handedOff ==> ServerHandler(ready) == Some(OpRead) && os.read.Arrived? && s != sv.listener
    ensures ServerHandler(ready) != Some(OpWrite) ==>
      r.server.core.pendingData == sv.core.pendingData && r.server.core.sent == sv.core.sent
    ensures r.server.core.pendingChanges == sv.core.pendingChanges && r.server.listener == sv.listener
    // on the channel kind it expects, the chosen handler is the one that runs
    ensures s in sv.core.keys && sv.core.keys[s].valid && ServerHandler(ready) == Some(OpAccept) && s == sv.listener ==>
      r.server == Accept(sv, os.acceptPending).state && r.thrown == Accept(sv, os.acceptPending).thrown
    ensures s in sv.core.keys && sv.core.keys[s].valid && ServerHandler(ready) == Some(OpRead) && s != sv.listener ==>
      r.server == Read(sv, s, os.read).server && r.handedOff == os.read.Arrived? && r.thrown == None
    ensures s in sv.core.keys && sv.core.keys[s].valid && ServerHandler(ready) == Some(OpRead) && s != sv.listener &&
            !os.read.Arrived? ==>
      s in r.server.core.closed && !r.server.core.keys[s].valid
    ensures s in sv.core.keys && sv.core.keys[s].valid && ServerHandler(ready) == Some(OpWrite) && s != sv.listener ==>
      && r.server == sv.(core := Reactor.Write(sv.core, s, os.writes).state)
      && r.thrown == Reactor.Write(sv.core, s, os.writes).thrown
  {
    if !(s in sv.core.keys && sv.core.keys[s].valid) then Served(sv, false, None)
    else
      match ServerHandler(ready)
      case None => Served(sv, false, None)
      case Some(op) =>
        if (op == OpAccept) != (s == sv.listener) then Served(sv, false, Some(WrongChannel))
        else if op == OpAccept then
          var o := Accept(sv, os.acceptPending);
          Served(o.state, false, o.thrown)
        else if op == OpRead then
          var r := Read(sv, s, os.read);
          Served(r.server, r.handedOff, None)
        else
          var o := Reactor.Write(sv.core, s, os.writes);
          Served(sv.(core := o.state), false, o.thrown)
  }

  /** The server's change processing honours only CHANGEOPS, replacing interest sets. */
  function ProcessChanges(sv: Server): (o: Outcome<Server>)
    ensures o.thrown == None ==> o.state.core.pendingChanges == []
    ensures o.thrown != None ==> o.state.core.pendingChanges == sv.core.pendingChanges
    ensures o.state == sv.(core := o.state.core)
  {
    var p := Reactor.ProcessChanges(ServerRole, sv.core);
    Outcome(sv.(core := p.state), p.thrown)
  }

  /**
   REGISTER requests are ignored by the server: a list of them leaves every
   key as it was, throws nothing, and is cleared.
   */
  lemma ServerIgnoresRegister(sv: Server)
    requires forall i :: 0 <= i < |sv.core.pendingChanges| ==> sv.core.pendingChanges[i].kind == Register
    ensures ProcessChanges(sv) == Outcome(sv.(core := sv.core.(pendingChanges := [])), None)
  {
    UnhonouredChangesKeepKeys(ServerRole, sv.core.keys, sv.core.closed, sv.core.pendingChanges);
  }

  /**
   Wherever REGISTER requests stand in the list, the server's change
   processing ends with the keys and the exception that the CHANGEOPS
   requests alone, in their order, would give.
   */
  lemma RegisterRequestsIgnored(sv: Server)
    ensures var o := ProcessChanges(sv);
      var a := ApplyChanges(ServerRole, sv.core.keys, sv.core.closed, HonouredOnly(ServerRole, sv.core.pendingChanges));
      o.state.core.keys == a.keys && o.thrown == a.thrown
    ensures forall ch :: ch in HonouredOnly(ServerRole, sv.core.pendingChanges) <==>
      ch in sv.core.pendingChanges && ch.kind == ChangeOps
  {
    UnhonouredChangesIgnored(ServerRole, sv.core.keys, sv.core.closed, sv.core.pendingChanges);
  }

  /** Whatever one selected key does, each channel's wire followed by its queue keeps its bytes. */
  lemma DispatchConservesBytes(sv: Server, s: Sock, ready: set<Op>, os: OsReply, t: Sock)
    ensures var r := Dispatch(sv, s, ready, os);
      SentOn(r.server.core, t) + PendingBytes(QueueOf(r.server.core, t))
      == SentOn(sv.core, t) + PendingBytes(QueueOf(sv.core, t))
  {
    var r := Dispatch(sv, s, ready, os);
    if s in sv.core.keys && sv.core.keys[s].valid && ServerHandler(ready) == Some(OpWrite) && s != sv.listener {
      assert r.server.core == Reactor.Write(sv.core, s, os.writes).state;
      if t != s {
        WriteLeavesOtherQueues(sv.core, s, os.writes, t);
      }
    } else {
      assert r.server.core.pendingData == sv.core.pendingData && r.server.core.sent == sv.core.sent;
    }
  }

  /**
   Only a teardown read of a channel cancels a valid key: every other valid
   key, every key a read finds data on, and every key whose chosen handler is
   not the read handler stays valid.
   */
  lemma DispatchKeepsValidKeys(sv: Server, s: Sock, ready: set<Op>, os: OsReply, t: Sock)
    requires t in sv.core.keys && sv.core.keys[t].valid
    requires t == s && ServerHandler(ready) == Some(OpRead) ==> os.read.Arrived?
    ensures var r := Dispatch(sv, s, ready, os);
      t in r.server.core.keys && r.server.core.keys[t].valid
  {
  }

  /**
   The operations that drive the server: `send` and `broadcast` from the
   worker, and change processing and one selected key on the selector thread.
   A broadcast names the order in which the selector's key set is listed; an
   order that lists some key twice or misses one describes no real call and
   leaves the server as it is.
   */
  datatype ServerEvent =
    | DoSend(socket: Sock, data: seq<byte>)
    | DoBroadcast(src: Sock, data: seq<byte>, mode: SimuMode, snapshot: seq<Sock>)
    | DoProcessChanges
    | DoReady(socket: Sock, ready: set<Op>, os: OsReply)

  function ServerStep(sv: Server, e: ServerEvent): (sv': Server)
    ensures sv'.listener == sv.listener
  {
    match e
    case DoSend(s, data) => Send(sv, s, data)
    case DoBroadcast(src, data, mode, snapshot) =>
      if IsSnapshot(sv, snapshot) then Broadcast(sv, src, data, mode, snapshot) else sv
    case DoProcessChanges => ProcessChanges(sv).state
    case DoReady(s, ready, os) => Dispatch(sv, s, ReadyOps(sv.core, s, ready), os).server
  }

  function ServerRun(sv: Server, events: seq<ServerEvent>): Server
    decreases |events|
  {
    if events == [] then sv else ServerRun(ServerStep(sv, events[0]), events[1..])
  }

  /** The bytes an event queues for `t`: a send's data for its channel, a broadcast's for each recipient. */
  function QueuedFor(sv: Server, e: ServerEvent, t: Sock): seq<byte>
  {
    match e
    case DoSend(s, data) => if s == t then data else []
    case DoBroadcast(src, data, mode, snapshot) =>
      if IsSnapshot(sv, snapshot) && IsRecipient(sv, t, src, mode) then data else []
    case DoProcessChanges => []
    case DoReady(_, _, _) => []
  }

  /** The bytes a run queues for `t`, in call order. */
  function QueuedOver(sv: Server, events: seq<ServerEvent>, t: Sock): seq<byte>
    decreases |events|
  {
    if events == [] then []
    else QueuedFor(sv, events[0], t) + QueuedOver(ServerStep(sv, events[0]), events[1..], t)
  }

  lemma ServerStepConservesBytes(sv: Server, e: ServerEvent, t: Sock)
    ensures var sv' := ServerStep(sv, e);
      SentOn(sv'.core, t) + PendingBytes(QueueOf(sv'.core, t))
      == SentOn(sv.core, t) + PendingBytes(QueueOf(sv.core, t)) + QueuedFor(sv, e, t)
  {
    var before := PendingBytes(QueueOf(sv.core, t));
    match e
    case DoSend(s, data) =>
      if s == t {
        PendingBytesAppend(QueueOf(sv.core, t), Wrap(data));
        AppendAssoc(SentOn(sv.core, t), before, data);
      }
    case DoBroadcast(src, data, mode, snapshot) =>
      if IsSnapshot(sv, snapshot) && IsRecipient(sv, t, src, mode) {
        assert t in Recipients(sv, src, mode);
        AppendAssoc(SentOn(sv.core, t), before, data);
      }
    case DoProcessChanges =>
    case DoReady(s, ready, os) =>
      DispatchConservesBytes(sv, s, ReadyOps(sv.core, s, ready), os, t);
  }

  /**
   Over any sequence of server operations, the bytes written to a channel
   followed by those still queued for it are exactly what was there before
   followed by the data of every later send to it and every later broadcast
   it was a recipient of, in call order.
   */
  lemma {:induction false} ServerRunConservesBytes(sv: Server, events: seq<ServerEvent>, t: Sock)
    ensures var last := ServerRun(sv, events);
      SentOn(last.core, t) + PendingBytes(QueueOf(last.core, t))
      == SentOn(sv.core, t) + PendingBytes(QueueOf(sv.core, t)) + QueuedOver(sv, events, t)
    decreases |events|
  {
    if events != [] {
      var sv1 := ServerStep(sv, events[0]);
      ServerStepConservesBytes(sv, events[0], t);
      ServerRunConservesBytes(sv1, events[1..], t);
      var before := SentOn(sv.core, t) + PendingBytes(QueueOf(sv.core, t));
      AppendAssoc(before, QueuedFor(sv, events[0], t), QueuedOver(sv1, events[1..], t));
    }
  }

  /**
   Whether `e` is a selected key on `s` that reports READ and whose read
   would meet an exception or end of stream. A ready set without READ cannot
   choose the read handler, so such an event never tears the channel down.
   */
  predicate TearsDown(e: ServerEvent, s: Sock)
  {
    e.DoReady? && e.socket == s && OpRead in e.ready && !e.os.read.Arrived?
  }

  lemma ServerStepKeepsRecipient(sv: Server, e: ServerEvent, s: Sock, src: Sock, mode: SimuMode)
    requires IsRecipient(sv, s, src, mode) && !TearsDown(e, s)
    ensures IsRecipient(ServerStep(sv, e), s, src, mode)
  {
    match e
    case DoSend(_, _) =>
    case DoBroadcast(_, _, _, _) =>
    case DoProcessChanges =>
      ApplyChangesKeepsValid(ServerRole, sv.core.keys, sv.core.closed, sv.core.pendingChanges, s);
    case DoReady(t, ready, os) =>
      DispatchKeepsValidKeys(sv, t, ReadyOps(sv.core, t, ready), os, s);
  }

  /**
   A connection stays a recipient of every broadcast (from a given source, in
   a given mode) until a read on it meets an exception or end of stream.
   */
  lemma {:induction false} RecipientUntilClosed(sv: Server, events: seq<ServerEvent>, s: Sock, src: Sock, mode: SimuMode)
    requires IsRecipient(sv, s, src, mode)
    requires forall i :: 0 <= i < |events| ==> !TearsDown(events[i], s)
    ensures IsRecipient(ServerRun(sv, events), s, src, mode)
    decreases |events|
  {
    if events != [] {
      ServerStepKeepsRecipient(sv, events[0], s, src, mode);
      assert forall i :: 0 <= i < |events[1..]| ==> events[1..][i] == events[i + 1];
      RecipientUntilClosed(ServerStep(sv, events[0]), events[1..], s, src, mode);
    }
  }

  /**
   An accepted connection is a recipient of every broadcast from another
   channel (or from itself in ATOMIC mode) until a read tears it down.
   */
  lemma AcceptedIsRecipientUntilClosed(sv: Server, events: seq<ServerEvent>, src: Sock, mode: SimuMode)
    requires sv.listener < sv.nextSock
    requires mode == Atomic || src != sv.nextSock
    requires forall i :: 0 <= i < |events| ==> !TearsDown(events[i], sv.nextSock)
    ensures IsRecipient(ServerRun(Accept(sv, true).state, events), sv.nextSock, src, mode)
  {
    RecipientUntilClosed(Accept(sv, true).state, events, sv.nextSock, src, mode);
  }

  /** Every event keeps the channel numbering well formed. */
  lemma ServerStepKeepsWellFormed(sv: Server, e: ServerEvent)
    requires WellFormed(sv)
    ensures WellFormed(ServerStep(sv, e))
  {
    match e
    case DoSend(_, _) =>
    case DoBroadcast(_, _, _, _) =>
    case DoProcessChanges =>
      ServerChangesKeepChannels(sv.core.keys, sv.core.closed, sv.core.pendingChanges);
    case DoReady(s, ready, os) =>
      var r := Dispatch(sv, s, ReadyOps(sv.core, s, ready), os);
      assert r.server.nextSock >= sv.nextSock && r.server.core.keys.Keys <= sv.core.keys.Keys + {sv.nextSock};
  }

  /** So does every run: from `Init()`, every reachable server is well formed. */
  lemma {:induction false} ServerRunKeepsWellFormed(sv: Server, events: seq<ServerEvent>)
    requires WellFormed(sv)
    ensures WellFormed(ServerRun(sv, events))
    decreases |events|
  {
    if events != [] {
      ServerStepKeepsWellFormed(sv, events[0]);
      ServerRunKeepsWellFormed(ServerStep(sv, events[0]), events[1..]);
    }
  }

  /**
   A cancelled key stays cancelled: no event makes it valid again, and
   `accept` never reuses its channel.
   */
  lemma ServerStepKeepsCancelled(sv: Server, e: ServerEvent, s: Sock)
    requires WellFormed(sv) && s in sv.core.keys && !sv.core.keys[s].valid
    ensures var sv' := ServerStep(sv, e);
      s in sv'.core.keys && !sv'.core.keys[s].valid
  {
    match e
    case DoSend(_, _) =>
    case DoBroadcast(_, _, _, _) =>
    case DoProcessChanges =>
      ApplyChangesKeepsCancelled(ServerRole, sv.core.keys, sv.core.closed, sv.core.pendingChanges, s);
    case DoReady(t, ready, os) =>
      var r := Dispatch(sv, t, ReadyOps(sv.core, t, ready), os);
      assert s in r.server.core.keys && r.server.core.keys[s] == sv.core.keys[s];
  }

  /**
   Once its key is cancelled a channel is no recipient of any broadcast,
   however many events follow; the numbering stays well formed throughout.
   */
  lemma {:induction false} CancelledStaysNoRecipient(sv: Server, events: seq<ServerEvent>, s: Sock,
                                                      src: Sock, mode: SimuMode)
    requires WellFormed(sv) && s in sv.core.keys && !sv.core.keys[s].valid
    ensures var last := ServerRun(sv, events);
      && WellFormed(last) && s in last.core.keys && !last.core.keys[s].valid
      && s !in Recipients(last, src, mode)
    decreases |events|
  {
    if events != [] {
      ServerStepKeepsWellFormed(sv, events[0]);
      ServerStepKeepsCancelled(sv, events[0], s);
      CancelledStaysNoRecipient(ServerStep(sv, events[0]), events[1..], s, src, mode);
    }
  }

  /**
   A channel torn down by a read (an exception or end of stream) is no
   recipient of any broadcast after any later sequence of events.
   */
  lemma TornDownIsNoRecipientLater(sv: Server, s: Sock, reply: ReadReply, events: seq<ServerEvent>,
                                   src: Sock, mode: SimuMode)
    requires WellFormed(sv) && s in sv.core.keys && !reply.Arrived?
    ensures s !in Recipients(ServerRun(Read(sv, s, reply).server, events), src, mode)
  {
    CancelledStaysNoRecipient(Read(sv, s, reply).server, events, s, src, mode);
  }

  /**
   `t` will be written: its last pending request asks for WRITE, or its key
   does, or its key is cancelled.
   */
  predicate WriteWanted(sv: Server, t: Sock)
  {
    || LastOp(ServerRole, sv.core.pendingChanges, t) == Some(OpWrite)
    || (t in sv.core.keys && (!sv.core.keys[t].valid || sv.core.keys[t].interest == {OpWrite}))
  }

  /**
   The server's interest invariant, with the bookkeeping it needs: the
   numbering is well formed, every CHANGEOPS asks for WRITE, and every
   channel with queued data is wanted for writing.
   */
  predicate WriteInterestKept(sv: Server)
  {
    && WellFormed(sv)
    && (forall i :: 0 <= i < |sv.core.pendingChanges| && sv.core.pendingChanges[i].kind == ChangeOps ==>
          sv.core.pendingChanges[i].op == OpWrite)
    && (forall t :: t in sv.core.pendingData && sv.core.pendingData[t] != [] ==> WriteWanted(sv, t))
  }

  lemma InitKeepsWriteInterest()
    ensures WriteInterestKept(Init())
  {
  }

  lemma SendKeepsWriteInterest(sv: Server, s: Sock, data: seq<byte>)
    requires WriteInterestKept(sv)
    ensures WriteInterestKept(Send(sv, s, data))
  {
    var sv' := Send(sv, s, data);
    var r := ChangeRequest(s, ChangeOps, OpWrite);
    forall i | 0 <= i < |sv'.core.pendingChanges| && sv'.core.pendingChanges[i].kind == ChangeOps
      ensures sv'.core.pendingChanges[i].op == OpWrite
    {
      if i < |sv.core.pendingChanges| {
        assert sv'.core.pendingChanges[i] == sv.core.pendingChanges[i];
      }
    }
    forall t | t in sv'.core.pendingData && sv'.core.pendingData[t] != []
      ensures WriteWanted(sv', t)
    {
      LastOpAppend(ServerRole, sv.core.pendingChanges, r, t);
      if t != s {
        assert sv.core.pendingData[t] == sv'.core.pendingData[t];
        assert WriteWanted(sv, t);
      }
    }
  }

  lemma {:induction false} SendAllKeepsWriteInterest(sv: Server, targets: seq<Sock>, data: seq<byte>)
    requires WriteInterestKept(sv)
    ensures WriteInterestKept(SendAll(sv, targets, data))
    decreases |targets|
  {
    if targets != [] {
      SendKeepsWriteInterest(sv, targets[0], data);
      SendAllKeepsWriteInterest(Send(sv, targets[0], data), targets[1..], data);
    }
  }

  /**
   Change processing keeps the invariant whether or not it throws: a request
   that throws leaves the list in place, and every request it does apply
   sets WRITE.
   */
  lemma ProcessChangesKeepsWriteInterest(sv: Server)
    requires WriteInterestKept(sv)
    ensures WriteInterestKept(ProcessChanges(sv).state)
  {
    var o := ProcessChanges(sv);
    var sv' := o.state;
    var pc := sv.core.pendingChanges;
    ServerChangesKeepChannels(sv.core.keys, sv.core.closed, pc);
    forall t | t in sv'.core.pendingData && sv'.core.pendingData[t] != []
      ensures WriteWanted(sv', t)
    {
      assert WriteWanted(sv, t);
      if o.thrown == None && LastOp(ServerRole, pc, t) == Some(OpWrite) {
        ProcessChangesLastWins(ServerRole, sv.core, t);
      } else if t in sv.core.keys {
        ServerWriteRequestsOnlyWrite(sv.core.keys, sv.core.closed, pc, t);
      }
    }
  }

  /** A channel with queued data after one selected key was wanted for writing before and still is. */
  lemma DispatchKeepsWriteWanted(sv: Server, s: Sock, ready: set<Op>, os: OsReply, t: Sock)
    requires WellFormed(sv)
    requires t in sv.core.pendingData && sv.core.pendingData[t] != [] ==> WriteWanted(sv, t)
    requires var sv' := Dispatch(sv, s, ready, os).server;
      t in sv'.core.pendingData && sv'.core.pendingData[t] != []
    ensures WriteWanted(Dispatch(sv, s, ready, os).server, t)
  {
    var sv' := Dispatch(sv, s, ready, os).server;
    if s in sv.core.keys && sv.core.keys[s].valid && ServerHandler(ready) == Some(OpWrite) && s != sv.listener {
      if t == s {
        assert ResumesSuffix(QueueOf(sv'.core, s), QueueOf(sv.core, s));
      } else {
        WriteLeavesOtherQueues(sv.core, s, os.writes, t);
      }
    } else if s in sv.core.keys && sv.core.keys[s].valid && ServerHandler(ready) == Some(OpAccept) && s == sv.listener {
      assert t != sv.nextSock ==> WriteWanted(sv, t);
    }
  }

  lemma StepKeepsWriteInterest(sv: Server, e: ServerEvent)
    requires WriteInterestKept(sv)
    ensures WriteInterestKept(ServerStep(sv, e))
  {
    ServerStepKeepsWellFormed(sv, e);
    match e
    case DoSend(s, data) => SendKeepsWriteInterest(sv, s, data);
    case DoBroadcast(src, data, mode, snapshot) =>
      if IsSnapshot(sv, snapshot) {
        SendAllKeepsWriteInterest(sv, Targets(sv, src, mode, snapshot), data);
      }
    case DoProcessChanges => ProcessChangesKeepsWriteInterest(sv);
    case DoReady(s, ready, os) =>
      var sv' := ServerStep(sv, e);
      forall t | t in sv'.core.pendingData && sv'.core.pendingData[t] != []
        ensures WriteWanted(sv', t)
      {
        DispatchKeepsWriteWanted(sv, s, ReadyOps(sv.core, s, ready), os, t);
      }
  }

  lemma {:induction false} RunKeepsWriteInterest(sv: Server, events: seq<ServerEvent>)
    requires WriteInterestKept(sv)
    ensures WriteInterestKept(ServerRun(sv, events))
    decreases |events|
  {
    if events != [] {
      StepKeepsWriteInterest(sv, events[0]);
      RunKeepsWriteInterest(ServerStep(sv, events[0]), events[1..]);
    }
  }

  /**
   From `Init()`, after any operations, whenever change processing completes
   every live channel with queued data is interested in WRITE alone. Unlike
   the client, the server needs no assumption that processing never throws.
   */
  lemma QueuedDataHasWriteInterest(events: seq<ServerEvent>, t: Sock)
    ensures var p := ProcessChanges(ServerRun(Init(), events));
      var k := p.state.core.keys;
      p.thrown == None && t in k && k[t].valid && QueueOf(p.state.core, t) != [] ==> k[t].interest == {OpWrite}
  {
    var sv := ServerRun(Init(), events);
    InitKeepsWriteInterest();
    RunKeepsWriteInterest(Init(), events);
    ProcessChangesKeepsWriteInterest(sv);
    var p := ProcessChanges(sv);
    if p.thrown == None && t in p.state.core.keys && QueueOf(p.state.core, t) != [] {
      assert WriteWanted(p.state, t);
    }
  }
}

=== FILE: write_queue.dfy ===
/**
 The per-connection outbound write path shared by both reactors: a FIFO queue
 of byte buffers, each possibly partly written, drained head-first by a
 sequence of socket writes whose accepted byte counts the OS chooses.
 */
module WriteQueue {
  import opened Common

  /** The code of `NioClient.SEPERATOR`, the character '|'. */
  const Separator: byte := 124

  /**
   A `ByteBuffer` made by `ByteBuffer.wrap`: the bytes before its position
   (already written) and the bytes from its position to its limit (still to go).
   */
  datatype Buffer = Buffer(consumed: seq<byte>, remaining: seq<byte>)

  /** `ByteBuffer.wrap(data)`: position 0, limit `|data|`. */
  function Wrap(data: seq<byte>): (b: Buffer)
    ensures b.remaining == data && b.consumed == []
  {
    Buffer([], data)
  }

  /** The bytes the queue still has to send: every buffer's remainder, head first. */
  function PendingBytes(q: seq<Buffer>): seq<byte>
  {
    if q == [] then [] else q[0].remaining + PendingBytes(q[1..])
  }

  /** No buffer but the head has been started. */
  predicate OnlyHeadStarted(q: seq<Buffer>)
  {
    forall i :: 0 < i < |q| ==> q[i].consumed == []
  }

  /**
   `r` is what is left of `q` after some buffers were removed from its front:
   an untouched suffix of `q`, except that its head may have advanced.
   */
  predicate ResumesSuffix(r: seq<Buffer>, q: seq<Buffer>)
  {
    && |r| <= |q|
    && (r != [] ==>
          var j := |q| - |r|;
          && r[1..] == q[j + 1..]
          && r[0].consumed + r[0].remaining == q[j].consumed + q[j].remaining
          && |q[j].consumed| <= |r[0].consumed|)
  }

  lemma {:induction false} PendingBytesAppend(q: seq<Buffer>, b: Buffer)
    ensures PendingBytes(q + [b]) == PendingBytes(q) + b.remaining
    decreases |q|
  {
    if q == [] {
      assert [] + [b] == [b];
      assert [b][1..] == [];
    } else {
      assert (q + [b])[0] == q[0];
      assert (q + [b])[1..] == q[1..] + [b];
      PendingBytesAppend(q[1..], b);
    }
  }

  /** The client's wire frame: the payload followed by one separator byte. */
  function Frame(payload: seq<byte>): (f: seq<byte>)
    ensures |f| == |payload| + 1
    ensures f[..|payload|] == payload && f[|payload|] == Separator
  {
    payload + [Separator]
  }

  /** Appending a freshly wrapped buffer: the pending bytes grow by exactly `data`. */
  function Enqueue(q: seq<Buffer>, data: seq<byte>): (q': seq<Buffer>)
    ensures |q'| == |q| + 1 && q'[..|q|] == q && q'[|q|] == Wrap(data)
    ensures PendingBytes(q') == PendingBytes(q) + data
    ensures OnlyHeadStarted(q) ==> OnlyHeadStarted(q')
  {
    PendingBytesAppend(q, Wrap(data));
    q + [Wrap(data)]
  }

  /**
   The OS's answer to one `SocketChannel.write`: it accepts up to `offered`
   bytes of the buffer's remainder, or it throws an `IOException`.
   */
  datatype WriteReply = Accepts(offered: nat) | Fails

  /** The answer to the next write call; once the answers run out the socket buffer is full. */
  function NextReply(rs: seq<WriteReply>): WriteReply
  {
    if rs == [] then Accepts(0) else rs[0]
  }

  function LaterReplies(rs: seq<WriteReply>): seq<WriteReply>
  {
    if rs == [] then [] else rs[1..]
  }

  /** A later answer that throws is an answer that throws. */
  lemma LaterFailureFails(rs: seq<WriteReply>)
    ensures Fails in LaterReplies(rs) ==> Fails in rs
  {
  }

  /** A write that moved the buffer's position on by `n` of its remaining bytes. */
  function Advance(b: Buffer, n: nat): (b': Buffer)
    requires n <= |b.remaining|
    ensures b.remaining == b.remaining[..n] + b'.remaining
    ensures b'.consumed + b'.remaining == b.consumed + b.remaining
    ensures |b'.consumed| == |b.consumed| + n && |b'.remaining| == |b.remaining| - n
  {
    Buffer(b.consumed + b.remaining[..n], b.remaining[n..])
  }

  /** Advancing the head of a queue leaves what `ResumesSuffix` allows. */
  lemma AdvancedHeadResumes(q: seq<Buffer>, n: nat)
    requires q != [] && n <= |q[0].remaining|
    ensures ResumesSuffix([Advance(q[0], n)] + q[1..], q)
  {
    assert ([Advance(q[0], n)] + q[1..])[1..] == q[1..];
  }

  /** What is left of a queue's tail is also what is left of the queue. */
  lemma TailRemnantResumes(q: seq<Buffer>, r: seq<Buffer>)
    requires q != [] && ResumesSuffix(r, q[1..])
    ensures ResumesSuffix(r, q)
    ensures r == q[1..][|q| - 1 - |r|..] ==> r == q[|q| - |r|..]
  {
    assert q[|q| - |r|..] == q[1..][|q| - 1 - |r|..];
    if r != [] {
      assert q[|q| - |r| + 1..] == q[1..][|q| - 1 - |r| + 1..];
    }
  }

  /** The queue left by one drain, the bytes the OS accepted, and whether a write threw. */
  datatype Drained = Drained(queue: seq<Buffer>, emitted: seq<byte>, failed: bool)

  /**
   The drain loop of both reactors' `write`: write the head buffer; if bytes of
   it remain, stop with the head advanced; otherwise remove it and go on. A
   write that throws stops the loop with the queue as it stands.
   */
  function Drain(q: seq<Buffer>, rs: seq<WriteReply>): (d: Drained)
    ensures d.emitted + PendingBytes(d.queue) == PendingBytes(q)
    ensures ResumesSuffix(d.queue, q)
    ensures d.queue != [] && !d.failed ==> d.queue[0].remaining != []
    ensures d.failed ==> d.queue != [] && d.queue == q[|q| - |d.queue|..]
    // only a write that throws can fail the drain
    ensures d.failed ==> Fails in rs
    decreases |q|
  {
    if q == [] then Drained([], [], false)
    else
      match NextReply(rs)
      case Fails => Drained(q, [], true)
      case Accepts(k) =>
        var n := Min(k, |q[0].remaining|);
        if n < |q[0].remaining| then
          var head := Advance(q[0], n);
          AdvancedHeadResumes(q, n);
          Drained([head] + q[1..], q[0].remaining[..n], false)
        else
          var rest := Drain(q[1..], LaterReplies(rs));
          LaterFailureFails(rs);
          TailRemnantResumes(q, rest.queue);
          Drained(rest.queue, q[0].remaining + rest.emitted, rest.failed)
  }

  /**
   The first reply decides what happens to the head: a throwing write leaves
   the queue untouched; an accepting one sends the first `offered` bytes of the
   head, stopping there with the head advanced when that is short of the head's
   remainder, and removing the head otherwise.
   */
  lemma DrainFirstWrite(q: seq<Buffer>, rs: seq<WriteReply>)
    ensures q != [] && NextReply(rs).Fails? ==> Drain(q, rs) == Drained(q, [], true)
    ensures q != [] && NextReply(rs).Accepts? ==> |Drain(q, rs).emitted| >= Min(NextReply(rs).offered, |q[0].remaining|)
    ensures q != [] && NextReply(rs).Accepts? && NextReply(rs).offered < |q[0].remaining| ==>
      var d := Drain(q, rs);
      |d.emitted| == NextReply(rs).offered && |d.queue| == |q| && !d.failed
    ensures q != [] && NextReply(rs).Accepts? && NextReply(rs).offered >= |q[0].remaining| ==> |Drain(q, rs).queue| < |q|
  {
    var d := Drain(q, rs);
    if q != [] && NextReply(rs).Accepts? && NextReply(rs).offered >= |q[0].remaining| {
      var rest := Drain(q[1..], LaterReplies(rs));
      assert d.queue == rest.queue;
    }
  }

  /** How much work a queue still holds: its pending bytes plus its buffers (an empty buffer still costs a write). */
  function Backlog(q: seq<Buffer>): nat
  {
    |PendingBytes(q)| + |q|
  }

  /** A drain whose first write accepts at least one byte always shrinks the backlog of a non-empty queue. */
  lemma DrainProgresses(q: seq<Buffer>, rs: seq<WriteReply>)
    ensures q != [] && NextReply(rs).Accepts? && NextReply(rs).offered >= 1 ==> Backlog(Drain(q, rs).queue) < Backlog(q)
  {
    var d := Drain(q, rs);
    DrainFirstWrite(q, rs);
    assert |d.emitted| + |PendingBytes(d.queue)| == |PendingBytes(q)|;
  }

  /** Every drain's first write accepts at least one byte. */
  predicate EveryFirstWriteAccepts(rss: seq<seq<WriteReply>>)
  {
    forall i :: 0 <= i < |rss| ==> NextReply(rss[i]).Accepts? && NextReply(rss[i]).offered >= 1
  }

  /** No write of any drain throws. */
  predicate NoWriteFails(rss: seq<seq<WriteReply>>)
  {
    forall i :: 0 <= i < |rss| ==> Fails !in rss[i]
  }

  /**
   The queue left by successive drains, the `i`-th seeing the OS replies
   `rss[i]`. An empty queue stays empty; while every first write accepts at
   least one byte, each drain takes at least one unit of backlog off until the
   queue is empty.
   */
  function DrainEach(q: seq<Buffer>, rss: seq<seq<WriteReply>>): (r: seq<Buffer>)
    ensures q == [] ==> r == []
    ensures EveryFirstWriteAccepts(rss) ==> r == [] || Backlog(r) + |rss| <= Backlog(q)
    decreases |rss|
  {
    if rss == [] then q
    else
      DrainProgresses(q, rss[0]);
      assert EveryFirstWriteAccepts(rss) ==> EveryFirstWriteAccepts(rss[1..]) by {
        assert forall i :: 0 <= i < |rss[1..]| ==> rss[1..][i] == rss[i + 1];
      }
      DrainEach(Drain(q, rss[0]).queue, rss[1..])
  }

  /**
   Progress of the drain loop: while every first write accepts at least one
   byte, whatever else the OS answers, as many drains as the queue's backlog
   empty it.
   */
  lemma DrainEachEmpties(q: seq<Buffer>, rss: seq<seq<WriteReply>>)
    requires EveryFirstWriteAccepts(rss)
    requires |rss| >= Backlog(q)
    ensures DrainEach(q, rss) == []
  {
  }

  /** Removing started-or-not buffers from the front never starts a later buffer. */
  lemma ResumedSuffixKeepsOnlyHeadStarted(r: seq<Buffer>, q: seq<Buffer>)
    requires OnlyHeadStarted(q) && ResumesSuffix(r, q)
    ensures OnlyHeadStarted(r)
  {
    forall i | 0 < i < |r|
      ensures r[i].consumed == []
    {
      assert r[i] == r[1..][i - 1] == q[|q| - |r| + 1..][i - 1];
    }
  }

  /**
   The `while (!queue.isEmpty())` loop of both reactors' `write`, step by step:
   one socket write per iteration, `break` on a partial write or an exception.
   */
  method DrainQueue(q0: seq<Buffer>, rs: seq<WriteReply>) returns (q: seq<Buffer>, emitted: seq<byte>, failed: bool)
    ensures Drained(q, emitted, failed) == Drain(q0, rs)
    ensures emitted + PendingBytes(q) == PendingBytes(q0)
  {
    q, emitted, failed := q0, [], false;
    var replies := rs;
    while q != []
      invariant Drain(q0, rs) == Drained(Drain(q, replies).queue, emitted + Drain(q, replies).emitted, Drain(q, replies).failed)
      decreases |q|
    {
      var buf := q[0];
      var reply := NextReply(replies);
      if reply.Fails? {
        failed := true;
        break;
      }
      var n := Min(reply.offered, |buf.remaining|);
      emitted := emitted + buf.remaining[..n];
      buf := Advance(buf, n);
      if buf.remaining != [] {
        q := [buf] + q[1..];
        break;
      }
      assert buf.remaining == [] && n == |q[0].remaining|;
      assert q[0].remaining[..n] == q[0].remaining;
      q := q[1..];
      replies := LaterReplies(replies);
    }
  }

  /** One thing that can happen to a single connection's queue. */
  datatype QueueEvent = Enqueued(data: seq<byte>) | Writable(replies: seq<WriteReply>)

  /** A queue and the bytes its connection has handed to the OS so far. */
  datatype Channel = Channel(queue: seq<Buffer>, wire: seq<byte>)

  function ApplyQueueEvent(ch: Channel, e: QueueEvent): Channel
  {
    match e
    case Enqueued(data) => Channel(Enqueue(ch.queue, data), ch.wire)
    case Writable(replies) =>
      var d := Drain(ch.queue, replies);
      Channel(d.queue, ch.wire + d.emitted)
  }

  function Replay(ch: Channel, events: seq<QueueEvent>): Channel
    decreases |events|
  {
    if events == [] then ch else Replay(ApplyQueueEvent(ch, events[0]), events[1..])
  }

  /** Everything producers submitted, in submission order. */
  function Submitted(events: seq<QueueEvent>): seq<byte>
    decreases |events|
  {
    if events == [] then []
    else (if events[0].Enqueued? then events[0].data else []) + Submitted(events[1..])
  }

  /**
   Over any interleaving of enqueues and write-readiness events, the wire
   followed by what is still queued is exactly the old wire, the old queue
   and the submitted bytes: nothing is lost, duplicated or reordered.
   */
  lemma {:induction false} ReplayConservesBytes(ch: Channel, events: seq<QueueEvent>)
    ensures Replay(ch, events).wire + PendingBytes(Replay(ch, events).queue)
         == ch.wire + PendingBytes(ch.queue) + Submitted(events)
    decreases |events|
  {
    if events != [] {
      var ch1 := ApplyQueueEvent(ch, events[0]);
      ReplayConservesBytes(ch1, events[1..]);
      var later := Submitted(events[1..]);
      match events[0]
      case Enqueued(data) =>
        assert Submitted(events) == data + later;
        AppendAssoc(ch.wire, PendingBytes(ch.queue), data);
        AppendAssoc(ch.wire + PendingBytes(ch.queue), data, later);
      case Writable(replies) =>
        var d := Drain(ch.queue, replies);
        assert Submitted(events) == [] + later == later;
        AppendAssoc(ch.wire, d.emitted, PendingBytes(d.queue));
    }
  }

  /** Starting from an idle connection, the wire is always a prefix of what was submitted. */
  lemma WireIsPrefixOfSubmitted(events: seq<QueueEvent>)
    ensures Replay(Channel([], []), events).wire <= Submitted(events)
  {
    var last := Replay(Channel([], []), events);
    ReplayConservesBytes(Channel([], []), events);
    assert last.wire + PendingBytes(last.queue) == Submitted(events);
    assert Submitted(events)[..|last.wire|] == last.wire;
  }

  /**
   Over any interleaving of enqueues and drains of one queue, only the head
   buffer is ever partly written. This is about the queue alone; the client
   and server runs are not replayed here.
   */
  lemma {:induction false} ReplayKeepsOnlyHeadStarted(ch: Channel, events: seq<QueueEvent>)
    requires OnlyHeadStarted(ch.queue)
    ensures OnlyHeadStarted(Replay(ch, events).queue)
    decreases |events|
  {
    if events != [] {
      var ch1 := ApplyQueueEvent(ch, events[0]);
      if events[0].Writable? {
        ResumedSuffixKeepsOnlyHeadStarted(ch1.queue, ch.queue);
      }
      ReplayKeepsOnlyHeadStarted(ch1, events[1..]);
    }
  }
}
